=== FILE: README.md ===
# Hn-Writer in Dafny

A model of the traversal-and-writer core of Hn-Writer, a directional text-entry scheme:

- **`TreeNode`** (`EnumTreeNode`): a node holds content, an optional parent, children keyed by direction label, and a weight. Nodes live in an arena, `map<Id, Node>`, whose handles grow in allocation order.
- **`EnumTree`** (`EnumTree`): the arena plus a root and a cursor. It provides:
  - `walkDown`, `walkUp`, `rewind` and `currentIsLeaf`;
  - the insertion operations `addNodeToPath` and `addChildToCurrent`;
  - the per-child content listing `getContentList`.
- **`HnTree`** (`HnTree`): a state machine over the tree, with a caps flag, a one-shot shift flag and a bounded FIFO buffer of emitted content. One walk takes one step down. Empty content gives NUL at once, so a leaf with empty content is never rewound from. A leaf with content rewinds. It turns the content reached into a character, either printable (with caps and shift applied) or a bracketed action token mapped to a control character.
- **`HnWriter`** (`HnWriter`): a second state machine on top of `HnTree.walk`'s result character. It keeps a line builder, a cached line string, and a history of completed lines.
- **`GenerativeBuilder`** (`GenerativeEnumTreeBuilder`): the builder as it stands. The Huffman loop has an empty body, so `build` returns the freshly constructed root-only tree and memoises it. The module also holds the fifty-entry `KEYS` list.
- **`Scenarios`**: the repository's writer test, and small trees that show what the code does with a typed `r` and with backspace. The trees are built directly in the arena.

Java exceptions become `Result` values (`Common.Error`), and object references become arena handles. Labels are the ordinals `0..3` of a four-constant direction enum (UP, DOWN, LEFT, RIGHT in the test). Children are visited in ordinal order, which is `EnumMap`'s iteration order.

Each pure operation has a partner:

- Listing: the builder-threading `getContentList(sb)` (`AppendContentList`) is proved equal to a reference pre-order word list (`Words`, `Spaced`, `Join`).
- Path insertion: `addNodeToPath` (`AddNodeToPath`, `Descend`) is characterised by path resolution over existing links (`Resolve`).
- Walks: the writer's walk is tied to `HnTree.Walk`, and runs of walks to invariants (builder prefix of the cached line, history counting newlines, buffer bound).

## Behaviour as written

The model follows the code, not its Javadoc. Where the two differ, these are proved:

- `addChild` throws when the slot is **empty** and replaces the child when it is occupied (`TreeNode.AddChild`). So `addNodeToPath` succeeds only when the whole path already exists, and on a fresh tree it always fails (`EnumTree.AddNodeToPath`, `Scenarios.FreshTreeRejectsEveryPath`). The Javadoc of `addNodeToPath` (`EnumTree.java:67`) says it creates missing nodes, and that of `addChild` (`EnumTreeNode.java:72`) says it throws when a child is already present; the code does the reverse.
- Backspace shortens the builder but not the cached string that `getString` returns, and never takes the builder below one character (`Scenarios.BackspaceLeavesStringStale`).
- `<sym>` produces character 114, which is `'r'`, and the writer ignores that code. So a typed lower-case `r` never reaches the line (`Scenarios.TypedRIsDropped`).
- `getFromBuffer(i)` and `getHistory(i)` read position `size - i`:
  - `getFromBuffer(0)` always fails (`HnTree.GetFromBufferZeroFails`);
  - `getHistory(0)` fails until 33 lines exist (`HnWriter.GetHistoryZeroNeeds33Lines`);
- The repository's writer test cannot pass:
  - its JSON builder calls `addNodeToPath` once per file entry on a fresh tree (`FlatJSONTreeBuilder.java:43`, `:58`);
  - that call always fails, and the builder catches only file-not-found and parse errors (`FlatJSONTreeBuilder.java:60-64`), so `new HnWriter` throws (`HnWriterTest.java:27`) before any walk;
  - a file with no entries would leave a lone root, on which every walk gives NUL (`GenerativeBuilder.BuiltTreeIsInert` shows this for a root-only tree) and `getHistory(0)` fails on the empty history;
  - even on a hand-built tree with the layout the test walks, the six walks give NUL h NUL i NUL newline, yet `getHistory(0)` fails with index 32 (`Scenarios.HiEnterOnShape`).
- The history is never evicted. The field `historySize` (`HnWriter.java:19`) is read only as the index offset in `getHistory` (`HnWriter.java:73`), and nothing bounds the list (`HnWriter.HistoryCountsNewlines`).

## Model

| member | source | states |
|---|---|---|
| Common.Wrap32 | src/main/java/ca/zach_bright/HnTree.java:140 | Java `int` subtraction: the result is the 32-bit value congruent to the exact one modulo 2^32, and is the exact one when that fits |
| TreeNode.NewNode | src/main/java/ca/zach_bright/EnumTreeNode.java:26-30 | null content is stored as the empty string; the new node has the given parent, weight 0 and no children, so it is a leaf |
| TreeNode.NewWeightedNode | src/main/java/ca/zach_bright/EnumTreeNode.java:40-48 | the weighted constructor is the unweighted one with only the weight set |
| TreeNode.GetChild | src/main/java/ca/zach_bright/EnumTreeNode.java:86-88 | a child is found exactly when one is stored under the label, and it is the stored one |
| TreeNode.SetWeight | src/main/java/ca/zach_bright/EnumTreeNode.java:102-108 | setWeight then getWeight returns the new weight; content, parent and children are untouched |
| TreeNode.AddChild | src/main/java/ca/zach_bright/EnumTreeNode.java:74-80 | fails exactly when no child is stored under the label (the inverted guard); otherwise that label now leads to the new child, the key set is the same, and every other label's child is unchanged |
| TreeNode.ParentReadsBack | src/main/java/ca/zach_bright/EnumTreeNode.java:82-84 | getParent returns the parent either constructor stored, and setWeight leaves it alone |
| TreeNode.WeightReadsBack | src/main/java/ca/zach_bright/EnumTreeNode.java:102-104 | getWeight returns 0 for an unweighted node, and the weight the weighted constructor or setWeight stored otherwise |
| TreeNode.ParentIsOlder | src/main/java/ca/zach_bright/EnumTreeNode.java:82-84 | in a valid arena a node's parent, when it has one, is an existing node allocated before it |
| TreeNode.NullContentIsEmpty | src/main/java/ca/zach_bright/EnumTreeNode.java:26-30 | a node made with null content equals one made with empty content |
| TreeNode.LeafIffNoChild | src/main/java/ca/zach_bright/EnumTreeNode.java:98-100 | a node is a leaf iff no label leads to a child; content plays no part |
| TreeNode.AddFreshChild | src/main/java/ca/zach_bright/EnumTree.java:141-144 | allocating a node with parent `at` and handing it to addChild: fails iff `at` has no child under the label; otherwise the arena stays valid, gains exactly the fresh node, and changes only `at`'s child under that label |
| TreeNode.AppendContentListSpacesWords | src/main/java/ca/zach_bright/EnumTreeNode.java:55-65 | getContentList(sb) appends exactly the subtree's non-empty contents in pre-order, children in label order, each followed by one space |
| TreeNode.AppendChildrenSpacesWords | src/main/java/ca/zach_bright/EnumTreeNode.java:62-64 | the loop over the children appends the spaced words of the remaining children's subtrees, in label order |
| TreeNode.SpacedAppend | src/main/java/ca/zach_bright/EnumTreeNode.java:55-65 | appending words one builder call after another spaces the concatenated word list |
| TreeNode.SpacedIsJoinPlusSpace | src/main/java/ca/zach_bright/EnumTree.java:121-125 | a spaced listing is empty iff there are no words; otherwise deleting its last character leaves the words joined by single spaces |
| EnumTree.New | src/main/java/ca/zach_bright/EnumTree.java:16-20 | the new tree is well formed; its root has empty content, no parent and no children, and is the cursor |
| EnumTree.WalkDown | src/main/java/ca/zach_bright/EnumTree.java:28-39 | the cursor moves to the child under the label when there is one and stays otherwise (a leaf has none); the arena is unchanged; the content returned is that of the cursor after the step |
| EnumTree.WalkUp | src/main/java/ca/zach_bright/EnumTree.java:44-48 | the cursor moves to its parent, or to the root when it has none; the arena is unchanged |
| EnumTree.Rewind | src/main/java/ca/zach_bright/EnumTree.java:53-55 | the cursor becomes the root; the arena is unchanged |
| EnumTree.CurrentIsLeaf | src/main/java/ca/zach_bright/EnumTree.java:62-64 | the cursor is a leaf iff no walkDown, under any label, moves it |
| EnumTree.WalkDownThenUp | src/main/java/ca/zach_bright/EnumTree.java:28-48 | a walkDown that moved the cursor is undone by walkUp |
| EnumTree.RewindIdempotent | src/main/java/ca/zach_bright/EnumTree.java:53-55 | rewinding twice equals rewinding once, and only the cursor changes |
| EnumTree.Resolve | src/main/java/ca/zach_bright/EnumTree.java:77-94 | reference for path following: the node reached by existing child links, always younger than the start for a non-empty path |
| EnumTree.ResolveSnoc | src/main/java/ca/zach_bright/EnumTree.java:77-94 | resolving a path plus a last label is resolving the path, then taking one child link |
| EnumTree.ResolveFrame | src/main/java/ca/zach_bright/EnumTree.java:77-94 | resolution is unaffected by changes to nodes no older than its destination, so changing only the last slot keeps the prefix's resolution |
| EnumTree.Descend | src/main/java/ca/zach_bright/EnumTree.java:77-88 | the traversal loop succeeds iff every link of the prefix exists, leaving the arena unchanged; a missing link fails in addChild |
| EnumTree.AddNodeToPath | src/main/java/ca/zach_bright/EnumTree.java:73-95 | an empty path fails with index -1; otherwise succeeds iff the whole path already resolves, and a failure is addChild's rejection of a missing child; on success the path leads to a new node holding the content whose parent is the prefix's node, exactly one node is added, and root and cursor are unchanged; every other existing node is unchanged, and the prefix's node keeps its content, parent, weight and labels, with only the last label's child replaced |
| EnumTree.AddChildToCurrent | src/main/java/ca/zach_bright/EnumTree.java:141-144 | fails iff the cursor has no child under the label; otherwise that child is replaced by a fresh leaf whose parent is the cursor, the cursor node keeps its content, parent and weight, the arena gains exactly that node, and other labels and nodes are unchanged |
| EnumTree.TrimmedListing | src/main/java/ca/zach_bright/EnumTree.java:120-128 | one child's entry: fails with index -1 iff its subtree has no non-empty content; otherwise the subtree's contents joined by single spaces |
| EnumTree.GetContentList | src/main/java/ca/zach_bright/EnumTree.java:105-132 | succeeds iff every child subtree has some non-empty content; keys are exactly the cursor's child labels (none at a leaf); each value is that child's pre-order contents joined by spaces |
| HnTree.New | src/main/java/ca/zach_bright/HnTree.java:24-28 | starts with the builder's tree, the given buffer size, an empty buffer, and caps and shift off |
| HnTree.NewDefault | src/main/java/ca/zach_bright/HnTree.java:35-37 | the one-argument constructor uses buffer size 32 |
| HnTree.ToUpper | src/main/java/ca/zach_bright/HnTree.java:73-75 | uppercasing keeps the length and maps each character independently |
| HnTree.AddToBuffer | src/main/java/ca/zach_bright/HnTree.java:125-131 | the buffer is the old one plus the content, with the oldest entry dropped once it grows past the size |
| HnTree.AddToBufferKeepsBound | src/main/java/ca/zach_bright/HnTree.java:125-131 | adding to a buffer within its size keeps it within its size; the new entry goes last and, when the buffer was full, only the oldest entry is dropped |
| HnTree.HandleSpecialCharacter | src/main/java/ca/zach_bright/HnTree.java:99-118 | the token table: bksp, space and enter map to backspace, space and newline; caps and shift toggle their own flag and give codes 20 and 16; sym gives code 114; anything else gives NUL; tree and buffer untouched |
| HnTree.ContentToChar | src/main/java/ca/zach_bright/HnTree.java:68-91 | printable content gives its first character, uppercased iff caps or shift was on; shift is cleared and caps kept; action content goes through the token table; either way the (possibly uppercased) content is buffered |
| HnTree.Walk | src/main/java/ca/zach_bright/HnTree.java:45-60 | empty content gives NUL, with only the cursor moved; otherwise a leaf rewinds to the root, an inner node keeps the cursor, and the content is converted; the arena never changes |
| HnTree.Walks | src/main/java/ca/zach_bright/HnTree.java:45-60 | a run of walks keeps the tree well formed and the arena unchanged, and returns one character per step |
| HnTree.GetFromBuffer | src/main/java/ca/zach_bright/HnTree.java:138-141 | reads position bufferSize minus index, computed with Java's 32-bit wrap-around, failing with that wrapped position unless it lies in the buffer |
| HnTree.GetFromBufferWrapIsHarmless | src/main/java/ca/zach_bright/HnTree.java:138-141 | with the buffer within its size, the wrap-around never decides the outcome: getFromBuffer succeeds iff the exact difference lies in the buffer, and reads that position |
| HnTree.SetCaps | src/main/java/ca/zach_bright/HnTree.java:143-145 | sets the caps flag and changes nothing else |
| HnTree.IsActionEdgeCases | src/main/java/ca/zach_bright/HnTree.java:71 | `<>`, `<a>` and the reserved tokens are actions; the empty string, `<`, `>`, a plain letter, an unclosed or unopened bracket, and brackets around a line terminator are not |
| HnTree.FlagAccessors | src/main/java/ca/zach_bright/HnTree.java:143-157 | nextIsCapitalized holds iff caps or shift is on; after setCaps(c), isCaps is c and isShift is unchanged, and setCaps(true) makes the next character capitalised |
| HnTree.NextIsCapitalizedPredictsCase | src/main/java/ca/zach_bright/HnTree.java:71-83 | for a lower-case printable key, the emitted character differs from it iff nextIsCapitalized held; afterwards shift is off and caps unchanged |
| HnTree.ActionsKeepShift | src/main/java/ca/zach_bright/HnTree.java:77-87 | action tokens other than shift leave the shift flag alone |
| HnTree.ToggleTwiceRestores | src/main/java/ca/zach_bright/HnTree.java:107-112 | caps twice, or shift twice, restores the flag |
| HnTree.WalkBuffersOneEntry | src/main/java/ca/zach_bright/HnTree.java:125-131 | a walk keeps the buffer within its size; a walk reaching content adds one entry at the end, dropping the oldest only when the buffer was full |
| HnTree.StepToBlankInner | src/main/java/ca/zach_bright/HnTree.java:45-50 | a step onto an inner node with empty content only moves the cursor and returns NUL |
| HnTree.StepToPrintableLeaf | src/main/java/ca/zach_bright/HnTree.java:45-91 | a step onto a printable leaf with caps and shift off returns its first character, buffers its content and rewinds |
| HnTree.StepToActionLeaf | src/main/java/ca/zach_bright/HnTree.java:45-118 | a step onto a leaf holding an action token other than caps and shift returns the token's character, buffers the token, rewinds, and leaves both flags alone |
| HnTree.WalksKeepBufferBounded | src/main/java/ca/zach_bright/HnTree.java:125-131 | no run of walks, however long, takes the buffer past its size |
| HnTree.GetFromBufferZeroFails | src/main/java/ca/zach_bright/HnTree.java:138-141 | with the buffer within its size, getFromBuffer(0) is always out of range |
| HnTree.EmptyLeafTraps | src/main/java/ca/zach_bright/HnTree.java:46-50 | at an empty-content leaf every walk returns NUL and no walk changes any state |
| HnWriter.New | src/main/java/ca/zach_bright/HnWriter.java:26-30 | an HnTree with the default buffer size, an empty builder and line, and an empty history |
| HnWriter.Walk | src/main/java/ca/zach_bright/HnWriter.java:38-69 | returns HnTree's character; backspace shortens only the builder, never below one character; newline moves the cached line to the history and clears both; NUL, 16, 20 and 114 change nothing; anything else is appended and the cache refreshed |
| HnWriter.Walks | src/main/java/ca/zach_bright/HnWriter.java:38-69 | a run of writer walks keeps the tree well formed and returns one character per step |
| HnWriter.GetHistory | src/main/java/ca/zach_bright/HnWriter.java:71-74 | reads position 32 minus index, computed with Java's 32-bit wrap-around, failing with that wrapped position unless it lies in the history |
| HnWriter.GetHistoryWrapIsHarmless | src/main/java/ca/zach_bright/HnWriter.java:71-74 | for any history a Java list can hold, getHistory succeeds iff the exact difference 32 minus index lies in the history, and reads that position |
| HnWriter.AccessorsAfterWalk | src/main/java/ca/zach_bright/HnWriter.java:49-82 | after a walk returning newline, getHistoryList has gained exactly the line getString showed before, and getString is empty; after any other walk getHistoryList is unchanged |
| HnWriter.WalksAgreeWithHnTree | src/main/java/ca/zach_bright/HnWriter.java:38-68 | over any run, the writer returns exactly the characters the underlying HnTree run returns, and leaves the HnTree in the same state |
| HnWriter.WalkKeepsBuilderPrefix | src/main/java/ca/zach_bright/HnWriter.java:43-66 | one walk keeps the builder a prefix of the cached line |
| HnWriter.WalksKeepBuilderPrefix | src/main/java/ca/zach_bright/HnWriter.java:43-66 | every run keeps the builder a prefix of the cached line |
| HnWriter.HistoryCountsNewlines | src/main/java/ca/zach_bright/HnWriter.java:49-54 | the history grows by exactly one line per newline returned, and earlier lines are never evicted or moved |
| HnWriter.GetHistoryZeroNeeds33Lines | src/main/java/ca/zach_bright/HnWriter.java:71-74 | getHistory(0) succeeds iff more than 32 lines have been completed, and otherwise fails with index 32 |
| GenerativeBuilder.NewBuilder | src/main/java/ca/zach_bright/GenerativeEnumTreeBuilder.java:17-25 | a new builder remembers no tree |
| GenerativeBuilder.Build | src/main/java/ca/zach_bright/GenerativeEnumTreeBuilder.java:33-49 | returns the remembered tree if any; otherwise a well-formed tree whose root is an empty leaf and the cursor, which it remembers |
| GenerativeBuilder.BuildIsMemoised | src/main/java/ca/zach_bright/GenerativeEnumTreeBuilder.java:34-36 | building again returns the same tree and builder |
| GenerativeBuilder.KeyPositionsReadBack | src/main/java/ca/zach_bright/GenerativeEnumTreeBuilder.java:12-15 | every key's position can be recovered from the key alone |
| GenerativeBuilder.KeysAreDistinct | src/main/java/ca/zach_bright/GenerativeEnumTreeBuilder.java:12-15 | KEYS has 50 entries, pairwise distinct |
| GenerativeBuilder.KeysHoldActionTokens | src/main/java/ca/zach_bright/GenerativeEnumTreeBuilder.java:12-15 | bksp, enter, shift, caps and sym are among the keys |
| GenerativeBuilder.BuiltTreeIsInert | src/main/java/ca/zach_bright/GenerativeEnumTreeBuilder.java:38-48 | on the built tree every walk returns NUL and changes no HnTree state |
| Scenarios.FreshTreeRejectsEveryPath | src/main/java/ca/zach_bright/EnumTree.java:73-95 | addNodeToPath fails on a freshly constructed tree for every content and path |
| Scenarios.CodeBuiltTreesStayRootOnly | src/main/java/ca/zach_bright/EnumTreeNode.java:74-80 | on a tree holding only its root, addNodeToPath and addChildToCurrent both fail, so the code never grows a tree past its root |
| Scenarios.HiTree | src/test/java/ca/zach_bright/HnWriterTest.java:29-35 | a well-formed tree with the cursor at the root, holding the layout the writer test walks |
| Scenarios.HiTreeIsHiShaped | src/test/java/ca/zach_bright/HnWriterTest.java:29-35 | UP LEFT reaches h, UP DOWN reaches i, and LEFT UP reaches enter on that tree |
| Scenarios.PassBlank | src/main/java/ca/zach_bright/HnWriter.java:38-61 | stepping onto an empty inner node moves only the cursor and returns NUL; line, history and buffer are unchanged |
| Scenarios.TypeOneChar | src/main/java/ca/zach_bright/HnWriter.java:38-68 | typing a one-character printable leaf with caps and shift off appends the character to both builder and line, buffers it, and rewinds |
| Scenarios.HiFirstUp | src/test/java/ca/zach_bright/HnWriterTest.java:30 | the test's first UP returns NUL and reaches the inner node |
| Scenarios.HiTypeH | src/test/java/ca/zach_bright/HnWriterTest.java:31 | LEFT then types h, making the line "h" and rewinding |
| Scenarios.HiSecondUp | src/test/java/ca/zach_bright/HnWriterTest.java:32 | the second UP returns NUL and keeps the line |
| Scenarios.HiTypeI | src/test/java/ca/zach_bright/HnWriterTest.java:33 | DOWN types i, making the line "hi" |
| Scenarios.HiEnter | src/test/java/ca/zach_bright/HnWriterTest.java:34-35 | the last two walks give NUL and newline, moving "hi" into the history |
| Scenarios.HiEnterOnShape | src/test/java/ca/zach_bright/HnWriterTest.java:29-39 | the test's six walks give NUL h NUL i NUL newline, getString is empty and the history is ["hi"], yet getHistory(0) fails with index 32 |
| Scenarios.HiEnterScenario | src/test/java/ca/zach_bright/HnWriterTest.java:29-39 | the same on the concrete test tree |
| Scenarios.ArTypeA | src/main/java/ca/zach_bright/HnWriter.java:65-68 | typing a appends it to builder and line |
| Scenarios.ArTypeR | src/main/java/ca/zach_bright/HnWriter.java:55-61 | typing r returns 'r' and buffers it, but leaves builder, line and history unchanged |
| Scenarios.ArTypeSecondA | src/main/java/ca/zach_bright/HnWriter.java:65-68 | typing a again makes the line "aa" |
| Scenarios.ArFirstBackspace | src/main/java/ca/zach_bright/HnWriter.java:43-48 | backspace on "aa" shortens the builder to "a" while the cached line stays "aa" |
| Scenarios.ArSecondBackspace | src/main/java/ca/zach_bright/HnWriter.java:43-48 | backspace on a one-character builder leaves it as it is |
| Scenarios.TypedRIsDropped | src/main/java/ca/zach_bright/HnWriter.java:55-61 | after typing a then r, the line is "a" |
| Scenarios.BackspaceLeavesStringStale | src/main/java/ca/zach_bright/HnWriter.java:43-48 | after a, a and two backspaces, the builder is "a" and getString still returns "aa" |

## Left out

- `FlatJSONTreeBuilder`, `FileEnumTreeBuilder` and the `EnumTreeBuilder` interface: file I/O over an external JSON library. A builder is modelled as the tree it yields, passed to the `HnTree`/`HnWriter` constructors.
- The n-ary Huffman construction: the loop in `GenerativeEnumTreeBuilder.build` has an empty body, so there is no algorithm to model.
- `HnTree.getContentList`: it only forwards to `EnumTree.getContentList`, which is modelled.
- Java generics and reflection (`Class<E>`, `getEnumConstants`): labels are a fixed four-value type, the ordinals of the direction enum.
- HnTree.Walk: `content == ""` (`HnTree.java:48`) is a reference comparison in Java; it is modelled as string equality. The two agree on every tree the code can build: `addChild` rejects every empty slot, so neither `addNodeToPath` nor `addChildToCurrent` ever adds a node to a fresh tree (`Scenarios.CodeBuiltTreesStayRootOnly`), and the root's `""` is the literal at `EnumTreeNode.java:27`. On a hand-built tree, a computed empty content stored by `AddNodeToPath` or `AddChildToCurrent` gives NUL in the model, where Java's reference test would not match it and `charAt(0)` (`HnTree.java:83`) would throw `StringIndexOutOfBoundsException`.
- HnTree.ContentToChar: a Dafny `char` is a Unicode scalar value, while Java's `charAt(0)` returns a UTF-16 code unit (`HnTree.java:83`). For content starting with a character outside the Basic Multilingual Plane, Java returns only the high surrogate, and the writer appends that lone surrogate (`HnWriter.java:65`); the model returns the whole character.
- HnTree.ToUpper: only ASCII `a`-`z` are uppercased; Java's locale and Unicode case mapping is not modelled.
- HnTree.IsAction: the regular expression `(<.*>)` is modelled by an explicit predicate (angle brackets at both ends, no Java line terminator in between), not by a general regex engine.
- TreeNode.AddChild: the exception's message text is not modelled; the error carries the rejected label.
- TreeNode.NewNode: `null` content is modelled as `None` only at the node constructor. `addNodeToPath` and `addChildToCurrent` forward their caller's content, which may be `null` (`EnumTree.java:93`, `:142`); there the model takes `""` for `null`, which gives the same node (`TreeNode.NullContentIsEmpty`).
- Node weights are unbounded integers; no weight is ever computed, so `int` overflow does not arise.
- The JUnit runner and the `h4.json` resource. The test is replayed on a hand-built tree with the layout the test walks (`Scenarios.HiTree`), since the resource's contents are not part of this model.
- Object identity and the garbage nodes that replacement leaves behind: a replaced child stays in the arena, unreachable, which is harmless.

=== FILE: common.dfy ===
/** Shared vocabulary of the model: the direction alphabet, node handles,
    and the failure-carrying result type that stands in for Java exceptions. */
module Common {

  /** Size of the direction alphabet. The repository's own enum has four
      constants (UP, DOWN, LEFT, RIGHT); nothing but the scenarios depends on
      the value. */
  const Arity: nat := 4

  /** A direction label, identified by its enum ordinal. `EnumMap` iterates
      its keys in ordinal order, which is the order of `nat` here. */
  type Label = l: nat | l < Arity

  /** A handle into the node arena; it replaces a Java object reference. */
  type Id = nat

  /** Java's `int`: a two's-complement 32-bit integer. */
  type Int32 = x: int | -0x8000_0000 <= x < 0x8000_0000

  /** Java's `int` arithmetic wraps around: the result is the one `Int32`
      congruent to the exact value modulo 2^32, which is the exact value
      itself whenever that fits. */
  function Wrap32(x: int): (r: Int32)
    ensures r % 0x1_0000_0000 == x % 0x1_0000_0000
    ensures -0x8000_0000 <= x < 0x8000_0000 ==> r == x
  {
    var m := x % 0x1_0000_0000;
    if m < 0x8000_0000 then m else m - 0x1_0000_0000
  }

  datatype Option<+T> = None | Some(value: T)

  /** The exceptions the core can raise. */
  datatype Error =
    | ChildRejected(lab: Label)        // IOException thrown by EnumTreeNode.addChild
    | IndexOutOfBounds(index: int)       // List.get with a bad index
    | StringIndexOutOfBounds(index: int) // StringBuilder.deleteCharAt with a bad index

  datatype Result<+T> = Ok(value: T) | Err(error: Error)
}

=== FILE: enum_tree.dfy ===
/** EnumTree: a tree of `TreeNode` nodes plus a cursor (`currentNode`) that
    callers move one label at a time. */
module EnumTree {
  import opened Common
  import opened TreeNode

  datatype Tree = Tree(arena: Arena, root: Id, cursor: Id)

  /** The result of `walkDown`: the tree with its moved cursor, and the
      returned content. */
  datatype Step = Step(tree: Tree, content: string)

  /** The arena is valid, root and cursor are nodes of it, and the root has
      no parent (it is created with a `null` one and parents never change). */
  predicate WellFormed(t: Tree) {
    && TreeNode.Valid(t.arena)
    && t.root in t.arena.nodes
    && t.cursor in t.arena.nodes
    && t.arena.nodes[t.root].parent == None
  }

  function Current(t: Tree): Node
    requires WellFormed(t)
  {
    t.arena.nodes[t.cursor]
  }

  /** The constructor: a single empty, parentless root that is also the cursor. */
  function New(): (t: Tree)
    ensures WellFormed(t)
    ensures t.cursor == t.root
    ensures Current(t).content == "" && Current(t).parent == None && IsLeaf(Current(t))
  {
    Tree(Arena(map[0 := NewNode(None, None)], 1), 0, 0)
  }

  /** `walkDown`: step to the child under `lab` if there is one, and return
      the content of the (possibly unmoved) cursor. `walkDown`'s `isLeaf`
      test is subsumed: a leaf has no child under any label. */
  function WalkDown(t: Tree, lab: Label): (r: Step)
    requires WellFormed(t)
    ensures WellFormed(r.tree)
    ensures r.tree.arena == t.arena && r.tree.root == t.root
    ensures lab in Current(t).children ==> r.tree.cursor == Current(t).children[lab]
    ensures lab !in Current(t).children ==> r.tree.cursor == t.cursor
    ensures r.content == Current(r.tree).content
  {
    var cur := Current(t);
    var t1 :=
      if !IsLeaf(cur) then
        match GetChild(cur, lab)
        case Some(next) => t.(cursor := next)
        case None => t
      else t;
    assert lab in cur.children ==> ChildLinked(t.arena, t.cursor, cur.children[lab]);
    Step(t1, Current(t1).content)
  }

  /** `walkUp`: move to the parent, or to the root when there is none. */
  function WalkUp(t: Tree): (r: Tree)
    requires WellFormed(t)
    ensures WellFormed(r)
    ensures r.arena == t.arena && r.root == t.root
    ensures Current(t).parent.Some? ==> r.cursor == Current(t).parent.value
    ensures Current(t).parent.None? ==> r.cursor == t.root
  {
    match GetParent(Current(t))
    case Some(p) => t.(cursor := p)
    case None => t.(cursor := t.root)
  }

  /** `rewind`: the cursor goes back to the root. */
  function Rewind(t: Tree): (r: Tree)
    requires WellFormed(t)
    ensures WellFormed(r)
    ensures r.arena == t.arena && r.root == t.root
    ensures r.cursor == r.root
  {
    t.(cursor := t.root)
  }

  /** `currentIsLeaf`: the cursor is a leaf exactly when no step down can
      move it. */
  predicate CurrentIsLeaf(t: Tree)
    requires WellFormed(t)
    ensures CurrentIsLeaf(t) <==> forall l: Label :: WalkDown(t, l).tree.cursor == t.cursor
  {
    assert forall l: Label :: l in Current(t).children ==> WalkDown(t, l).tree.cursor != t.cursor by {
      forall l: Label | l in Current(t).children
        ensures WalkDown(t, l).tree.cursor != t.cursor
      {
        assert ChildLinked(t.arena, t.cursor, Current(t).children[l]);
      }
    }
    IsLeaf(Current(t))
  }

  /** A step down that moved the cursor is undone by a step up, thanks to
      the parent link every new child receives. */
  lemma WalkDownThenUp(t: Tree, lab: Label)
    requires WellFormed(t)
    requires WalkDown(t, lab).tree.cursor != t.cursor
    ensures WalkUp(WalkDown(t, lab).tree) == t
  {
    var cur := Current(t);
    assert lab in cur.children;
    assert ChildLinked(t.arena, t.cursor, cur.children[lab]);
  }

  /** Rewinding twice is rewinding once, from wherever the cursor was. */
  lemma RewindIdempotent(t: Tree)
    requires WellFormed(t)
    ensures Rewind(Rewind(t)) == Rewind(t)
    ensures Rewind(t) == t.(cursor := t.root)
  {
  }

  // ---------------------------------------------------------------------
  // Path insertion (`addNodeToPath`).

  /** Reference definition: the node reached from `from` by following
      existing child links along `path`, if every link exists. */
  function Resolve(a: Arena, from: Id, path: seq<Label>): (r: Option<Id>)
    requires TreeNode.Valid(a) && from in a.nodes
    ensures r.Some? ==> r.value in a.nodes && from <= r.value
    ensures r.Some? && |path| > 0 ==> from < r.value
    decreases |path|
  {
    if |path| == 0 then Some(from)
    else if path[0] in a.nodes[from].children then
      assert ChildLinked(a, from, a.nodes[from].children[path[0]]);
      Resolve(a, a.nodes[from].children[path[0]], path[1..])
    else None
  }

  /** Resolving a path extended by one label resolves the path, then takes
      one child link. */
  lemma {:induction false} ResolveSnoc(a: Arena, from: Id, path: seq<Label>, lab: Label)
    requires TreeNode.Valid(a) && from in a.nodes
    ensures Resolve(a, from, path + [lab]) ==
      match Resolve(a, from, path)
      case None => None
      case Some(y) => if lab in a.nodes[y].children then Some(a.nodes[y].children[lab]) else None
    decreases |path|
  {
    if |path| == 0 {
      assert path + [lab] == [lab];
      assert [lab][1..] == [];
      if lab in a.nodes[from].children {
        assert ChildLinked(a, from, a.nodes[from].children[lab]);
      }
    } else {
      assert (path + [lab])[0] == path[0];
      assert (path + [lab])[1..] == path[1..] + [lab];
      if path[0] in a.nodes[from].children {
        assert ChildLinked(a, from, a.nodes[from].children[path[0]]);
        ResolveSnoc(a, a.nodes[from].children[path[0]], path[1..], lab);
      }
    }
  }

  /** Resolution only looks at nodes older than its destination, so an
      arena that agrees on those nodes' children resolves the path alike. */
  lemma {:induction false} ResolveFrame(a: Arena, b: Arena, from: Id, path: seq<Label>)
    requires TreeNode.Valid(a) && TreeNode.Valid(b) && from in a.nodes
    requires a.nodes.Keys <= b.nodes.Keys
    requires Resolve(a, from, path).Some?
    requires forall z :: z in a.nodes && z < Resolve(a, from, path).value ==>
               b.nodes[z].children == a.nodes[z].children
    ensures Resolve(b, from, path) == Resolve(a, from, path)
    decreases |path|
  {
    if |path| > 0 {
      var y := Resolve(a, from, path).value;
      assert from < y;
      var c := a.nodes[from].children[path[0]];
      assert ChildLinked(a, from, c);
      assert b.nodes[from].children == a.nodes[from].children;
      ResolveFrame(a, b, c, path[1..]);
    }
  }

  /** The `for` loop of `addNodeToPath`: follow `labels` from `at`, creating
      a blank node wherever a link is missing. Creating one means calling
      `addChild` on an empty slot, which always throws; so the descent
      succeeds exactly when every link already exists, and then it has not
      changed the arena. */
  function Descend(a: Arena, at: Id, labels: seq<Label>): (r: Result<(Arena, Id)>)
    requires TreeNode.Valid(a) && at in a.nodes
    ensures r.Ok? <==> Resolve(a, at, labels).Some?
    ensures r.Ok? ==> r.value == (a, Resolve(a, at, labels).value)
    ensures r.Err? ==> r.error.ChildRejected?
    decreases |labels|
  {
    if |labels| == 0 then Ok((a, at))
    else
      var lab := labels[0];
      match GetChild(a.nodes[at], lab)
      case Some(next) =>
        assert ChildLinked(a, at, next);
        Descend(a, next, labels[1..])
      case None =>
        match AddFreshChild(a, at, "", lab)
        case Err(e) => Err(e)
        case Ok(_) => assert false; Err(ChildRejected(lab))
  }

  /** `addNodeToPath` as written. An empty path fails on `get(-1)`; any
      missing intermediate link fails in `addChild`; the final `addChild`
      fails on an empty slot and otherwise replaces the child there with a
      new leaf. The cursor never moves. */
  function AddNodeToPath(t: Tree, content: string, path: seq<Label>): (r: Result<Tree>)
    requires WellFormed(t)
    ensures r.Ok? <==> |path| > 0 && Resolve(t.arena, t.root, path).Some?
    ensures |path| == 0 ==> r == Err(IndexOutOfBounds(-1))
    ensures |path| > 0 && r.Err? ==> r.error.ChildRejected?
    ensures r.Ok? ==> WellFormed(r.value) && r.value.root == t.root && r.value.cursor == t.cursor
    ensures r.Ok? ==>
      var kid := Resolve(r.value.arena, t.root, path);
      && kid.Some?
      && kid.value !in t.arena.nodes
      && r.value.arena.nodes.Keys == t.arena.nodes.Keys + {kid.value}
      && r.value.arena.nodes[kid.value] ==
           NewNode(Some(content), Resolve(t.arena, t.root, path[..|path| - 1]))
    ensures r.Ok? ==> Resolve(t.arena, t.root, path[..|path| - 1]).Some?
    ensures r.Ok? ==>
      var p := Resolve(t.arena, t.root, path[..|path| - 1]).value;
      var lab := path[|path| - 1];
      var before := t.arena.nodes[p];
      var after := r.value.arena.nodes[p];
      && (forall z :: z in t.arena.nodes && z != p ==> r.value.arena.nodes[z] == t.arena.nodes[z])
      && after.content == before.content && after.parent == before.parent && after.weight == before.weight
      && after.children.Keys == before.children.Keys
      && lab in before.children && lab in after.children
      && after.children[lab] == Resolve(r.value.arena, t.root, path).value
      && (forall l :: l in before.children && l != lab ==> after.children[l] == before.children[l])
  {
    if |path| == 0 then Err(IndexOutOfBounds(-1))
    else
      var prefix := path[..|path| - 1];
      var last := path[|path| - 1];
      assert path == prefix + [last];
      ResolveSnoc(t.arena, t.root, prefix, last);
      match Descend(t.arena, t.root, prefix)
      case Err(e) => Err(e)
      case Ok((a, at)) =>
        match AddFreshChild(a, at, content, last)
        case Err(e) => Err(e)
        case Ok((b, kid)) =>
          assert a == t.arena && at == Resolve(t.arena, t.root, prefix).value;
          ResolveFrame(a, b, t.root, prefix);
          ResolveSnoc(b, t.root, prefix, last);
          assert Resolve(b, t.root, path) == Some(kid);
          Ok(t.(arena := b))
  }

  /** `addChildToCurrent`: a new leaf under the cursor, accepted by
      `addChild` only where a child is already stored. */
  function AddChildToCurrent(t: Tree, content: string, lab: Label): (r: Result<Tree>)
    requires WellFormed(t)
    ensures r.Err? <==> lab !in Current(t).children
    ensures r.Err? ==> r.error == ChildRejected(lab)
    ensures r.Ok? ==> WellFormed(r.value) && r.value.root == t.root && r.value.cursor == t.cursor
    ensures r.Ok? ==> lab in Current(r.value).children
    ensures r.Ok? ==>
      var kid := Current(r.value).children[lab];
      && kid !in t.arena.nodes
      && r.value.arena.nodes.Keys == t.arena.nodes.Keys + {kid}
      && r.value.arena.nodes[kid] == NewNode(Some(content), Some(t.cursor))
      && Current(r.value).content == Current(t).content
      && Current(r.value).parent == Current(t).parent
      && Current(r.value).weight == Current(t).weight
      && Current(r.value).children.Keys == Current(t).children.Keys
      && (forall l :: l in Current(t).children && l != lab ==>
            Current(r.value).children[l] == Current(t).children[l])
      && (forall z :: z in t.arena.nodes && z != t.cursor ==>
            r.value.arena.nodes[z] == t.arena.nodes[z])
  {
    match AddFreshChild(t.arena, t.cursor, content, lab)
    case Err(e) => Err(e)
    case Ok((b, _)) => Ok(t.(arena := b))
  }

  // ---------------------------------------------------------------------
  // Content listing (`getContentList()`).

  /** One entry of `getContentList()`: the pre-order listing of the subtree
      at `id` with its trailing space deleted, which throws when the
      listing is empty. The result is the subtree's non-empty contents,
      joined by single spaces. */
  function TrimmedListing(a: Arena, id: Id): (r: Result<string>)
    requires TreeNode.Valid(a) && id in a.nodes
    ensures r.Ok? <==> Words(a, id) != []
    ensures r.Ok? ==> r.value == Join(Words(a, id))
    ensures r.Err? ==> r.error == StringIndexOutOfBounds(-1)
  {
    var sb := AppendContentList(a, id, "");
    AppendContentListSpacesWords(a, id, "");
    SpacedIsJoinPlusSpace(Words(a, id));
    if |sb| == 0 then Err(StringIndexOutOfBounds(-1))
    else Ok(sb[..|sb| - 1])
  }

  /** `getContentList()`: for each child of the cursor, in label order, the
      child's trimmed listing; the first empty one throws. A leaf cursor
      yields the empty map. */
  method GetContentList(t: Tree) returns (r: Result<map<Label, string>>)
    requires WellFormed(t)
    ensures r.Ok? <==> forall l :: l in Current(t).children ==>
                         Words(t.arena, Current(t).children[l]) != []
    ensures r.Err? ==> r.error == StringIndexOutOfBounds(-1)
    ensures r.Ok? ==> r.value.Keys == Current(t).children.Keys
    ensures r.Ok? ==> forall l :: l in r.value ==>
                        r.value[l] == Join(Words(t.arena, Current(t).children[l]))
  {
    var cur := Current(t);
    var m: map<Label, string> := map[];
    if IsLeaf(cur) {
      return Ok(m);
    }
    var i: nat := 0;
    while i < Arity
      invariant i <= Arity
      invariant forall l: Label :: l in m <==> (l in cur.children && l < i)
      invariant forall l :: l in cur.children && l < i ==> Words(t.arena, cur.children[l]) != []
      invariant forall l :: l in m ==> m[l] == Join(Words(t.arena, cur.children[l]))
    {
      var lab: Label := i;
      if lab in cur.children {
        assert ChildLinked(t.arena, t.cursor, cur.children[lab]);
        var entry := TrimmedListing(t.arena, cur.children[lab]);
        if entry.Err? {
          return Err(entry.error);
        }
        m := m[lab := entry.value];
      }
      i := i + 1;
    }
    return Ok(m);
  }
}

=== FILE: generative_builder.dfy ===
/** GenerativeEnumTreeBuilder as it stands: the Huffman construction is not
    written yet (its per-key loop has an empty body), so `build` yields the
    freshly constructed root-only tree, and remembers it. */
module GenerativeBuilder {
  import opened Common
  import opened TreeNode
  import opened EnumTree
  import opened HnTree

  /** The key list, most frequent first, in four parts. */
  const KeysLine1: seq<string> := [" ", "e", "t", "a", "o", "i", "n", "<bksp>"]
  const KeysLine2: seq<string> := ["<enter>", "<shift>", "s", "h", "r", "l", "d", "c", "u", "<caps>", ".", ",", "f"]
  const KeysLine3: seq<string> := ["m", "w", "y", "p", "g", "b", "v", "k", "x", "j", "q", "z", "?", ";", "'", "-", "%"]
  const KeysLine4: seq<string> := ["$", "<sym>", "0", "1", "2", "3", "4", "5", "6", "7", "8", "9"]
  const Keys: seq<string> := KeysLine1 + KeysLine2 + KeysLine3 + KeysLine4

  /** The memo field `tree`, `None` until the first build. */
  datatype Builder = Builder(tree: Option<Tree>)

  datatype Built = Built(builder: Builder, tree: Tree)

  /** The builder invariant: a remembered tree is well formed. */
  predicate Memo(b: Builder) {
    b.tree.Some? ==> WellFormed(b.tree.value)
  }

  function NewBuilder(): (b: Builder)
    ensures b.tree.None? && Memo(b)
  {
    Builder(None)
  }

  /** `build`: return the remembered tree if there is one; otherwise
      construct a new tree, leave it as it is, and remember it. */
  function Build(b: Builder): (r: Built)
    requires Memo(b)
    ensures WellFormed(r.tree) && Memo(r.builder)
    ensures r.builder.tree == Some(r.tree)
    ensures b.tree.Some? ==> r.tree == b.tree.value
    ensures b.tree.None? ==>
      && r.tree.cursor == r.tree.root
      && Current(r.tree).content == "" && IsLeaf(Current(r.tree))
  {
    match b.tree
    case Some(t) => Built(b, t)
    case None =>
      var t := EnumTree.New();
      Built(Builder(Some(t)), t)
  }

  /** Building again returns the same tree and the same builder. */
  lemma BuildIsMemoised(b: Builder)
    requires Memo(b)
    ensures Build(Build(b).builder) == Build(b)
  {
  }

  /** A fingerprint that already tells the keys apart: the character of a
      one-character key, and 256 plus the third character of a longer one. */
  function KeyCode(k: string): int {
    if |k| == 1 then k[0] as int else if |k| >= 3 then 256 + k[2] as int else -1
  }

  /** The position in `Keys` of the key with fingerprint `c`. */
  function CodeRank(c: int): int {
    if c == 32 then 0
    else if c == 101 then 1
    else if c == 116 then 2
    else if c == 97 then 3
    else if c == 111 then 4
    else if c == 105 then 5
    else if c == 110 then 6
    else if c == 363 then 7
    else if c == 366 then 8
    else if c == 360 then 9
    else if c == 115 then 10
    else if c == 104 then 11
    else if c == 114 then 12
    else if c == 108 then 13
    else if c == 100 then 14
    else if c == 99 then 15
    else if c == 117 then 16
    else if c == 353 then 17
    else if c == 46 then 18
    else if c == 44 then 19
    else if c == 102 then 20
    else if c == 109 then 21
    else if c == 119 then 22
    else if c == 121 then 23
    else if c == 112 then 24
    else if c == 103 then 25
    else if c == 98 then 26
    else if c == 118 then 27
    else if c == 107 then 28
    else if c == 120 then 29
    else if c == 106 then 30
    else if c == 113 then 31
    else if c == 122 then 32
    else if c == 63 then 33
    else if c == 59 then 34
    else if c == 39 then 35
    else if c == 45 then 36
    else if c == 37 then 37
    else if c == 36 then 38
    else if c == 377 then 39
    else if c == 48 then 40
    else if c == 49 then 41
    else if c == 50 then 42
    else if c == 51 then 43
    else if c == 52 then 44
    else if c == 53 then 45
    else if c == 54 then 46
    else if c == 55 then 47
    else if c == 56 then 48
    else if c == 57 then 49
    else -1
  }

  /** Each key's position in `Keys` can be read back from the key itself,
      shown one source line at a time. */
  lemma Line1ReadsBack()
    ensures |KeysLine1| == 8
    ensures forall i :: 0 <= i < |KeysLine1| ==> CodeRank(KeyCode(KeysLine1[i])) == 0 + i
  {
    forall i | 0 <= i < |KeysLine1| ensures CodeRank(KeyCode(KeysLine1[i])) == 0 + i {
      if i == 0 { assert KeyCode(KeysLine1[0]) == 32; }
      else if i == 1 { assert KeyCode(KeysLine1[1]) == 101; }
      else if i == 2 { assert KeyCode(KeysLine1[2]) == 116; }
      else if i == 3 { assert KeyCode(KeysLine1[3]) == 97; }
      else if i == 4 { assert KeyCode(KeysLine1[4]) == 111; }
      else if i == 5 { assert KeyCode(KeysLine1[5]) == 105; }
      else if i == 6 { assert KeyCode(KeysLine1[6]) == 110; }
      else { assert KeyCode(KeysLine1[7]) == 363; }
    }
  }

  lemma Line2ReadsBack()
    ensures |KeysLine2| == 13
    ensures forall i :: 0 <= i < |KeysLine2| ==> CodeRank(KeyCode(KeysLine2[i])) == 8 + i
  {
    forall i | 0 <= i < |KeysLine2| ensures CodeRank(KeyCode(KeysLine2[i])) == 8 + i {
      if i == 0 { assert KeyCode(KeysLine2[0]) == 366; }
      else if i == 1 { assert KeyCode(KeysLine2[1]) == 360; }
      else if i == 2 { assert KeyCode(KeysLine2[2]) == 115; }
      else if i == 3 { assert KeyCode(KeysLine2[3]) == 104; }
      else if i == 4 { assert KeyCode(KeysLine2[4]) == 114; }
      else if i == 5 { assert KeyCode(KeysLine2[5]) == 108; }
      else if i == 6 { assert KeyCode(KeysLine2[6]) == 100; }
      else if i == 7 { assert KeyCode(KeysLine2[7]) == 99; }
      else if i == 8 { assert KeyCode(KeysLine2[8]) == 117; }
      else if i == 9 { assert KeyCode(KeysLine2[9]) == 353; }
      else if i == 10 { assert KeyCode(KeysLine2[10]) == 46; }
      else if i == 11 { assert KeyCode(KeysLine2[11]) == 44; }
      else { assert KeyCode(KeysLine2[12]) == 102; }
    }
  }

  lemma Line3ReadsBack()
    ensures |KeysLine3| == 17
    ensures forall i :: 0 <= i < |KeysLine3| ==> CodeRank(KeyCode(KeysLine3[i])) == 21 + i
  {
    forall i | 0 <= i < |KeysLine3| ensures CodeRank(KeyCode(KeysLine3[i])) == 21 + i {
      if i == 0 { assert KeyCode(KeysLine3[0]) == 109; }
      else if i == 1 { assert KeyCode(KeysLine3[1]) == 119; }
      else if i == 2 { assert KeyCode(KeysLine3[2]) == 121; }
      else if i == 3 { assert KeyCode(KeysLine3[3]) == 112; }
      else if i == 4 { assert KeyCode(KeysLine3[4]) == 103; }
      else if i == 5 { assert KeyCode(KeysLine3[5]) == 98; }
      else if i == 6 { assert KeyCode(KeysLine3[6]) == 118; }
      else if i == 7 { assert KeyCode(KeysLine3[7]) == 107; }
      else if i == 8 { assert KeyCode(KeysLine3[8]) == 120; }
      else if i == 9 { assert KeyCode(KeysLine3[9]) == 106; }
      else if i == 10 { assert KeyCode(KeysLine3[10]) == 113; }
      else if i == 11 { assert KeyCode(KeysLine3[11]) == 122; }
      else if i == 12 { assert KeyCode(KeysLine3[12]) == 63; }
      else if i == 13 { assert KeyCode(KeysLine3[13]) == 59; }
      else if i == 14 { assert KeyCode(KeysLine3[14]) == 39; }
      else if i == 15 { assert KeyCode(KeysLine3[15]) == 45; }
      else { assert KeyCode(KeysLine3[16]) == 37; }
    }
  }

  lemma Line4ReadsBack()
    ensures |KeysLine4| == 12
    ensures forall i :: 0 <= i < |KeysLine4| ==> CodeRank(KeyCode(KeysLine4[i])) == 38 + i
  {
    forall i | 0 <= i < |KeysLine4| ensures CodeRank(KeyCode(KeysLine4[i])) == 38 + i {
      if i == 0 { assert KeyCode(KeysLine4[0]) == 36; }
      else if i == 1 { assert KeyCode(KeysLine4[1]) == 377; }
      else if i == 2 { assert KeyCode(KeysLine4[2]) == 48; }
      else if i == 3 { assert KeyCode(KeysLine4[3]) == 49; }
      else if i == 4 { assert KeyCode(KeysLine4[4]) == 50; }
      else if i == 5 { assert KeyCode(KeysLine4[5]) == 51; }
      else if i == 6 { assert KeyCode(KeysLine4[6]) == 52; }
      else if i == 7 { assert KeyCode(KeysLine4[7]) == 53; }
      else if i == 8 { assert KeyCode(KeysLine4[8]) == 54; }
      else if i == 9 { assert KeyCode(KeysLine4[9]) == 55; }
      else if i == 10 { assert KeyCode(KeysLine4[10]) == 56; }
      else { assert KeyCode(KeysLine4[11]) == 57; }
    }
  }

  lemma KeyPositionsReadBack()
    ensures |Keys| == 50
    ensures forall i :: 0 <= i < |Keys| ==> CodeRank(KeyCode(Keys[i])) == i
  {
    Line1ReadsBack();
    Line2ReadsBack();
    Line3ReadsBack();
    Line4ReadsBack();
    forall i | 0 <= i < |Keys| ensures CodeRank(KeyCode(Keys[i])) == i {
      if i < 8 {
        assert Keys[i] == KeysLine1[i];
      } else if i < 21 {
        assert Keys[i] == KeysLine2[i - 8];
      } else if i < 38 {
        assert Keys[i] == KeysLine3[i - 21];
      } else {
        assert Keys[i] == KeysLine4[i - 38];
      }
    }
  }

  /** The key list has fifty entries, no two alike. */
  lemma KeysAreDistinct()
    ensures |Keys| == 50
    ensures forall i, j :: 0 <= i < j < |Keys| ==> Keys[i] != Keys[j]
  {
    KeyPositionsReadBack();
  }

  /** The five reserved action tokens are among the keys. */
  lemma KeysHoldActionTokens()
    ensures forall k :: k in ["<bksp>", "<enter>", "<shift>", "<caps>", "<sym>"] ==> k in Keys
  {
    assert Keys[7] == "<bksp>" && Keys[8] == "<enter>" && Keys[9] == "<shift>";
    assert Keys[17] == "<caps>" && Keys[39] == "<sym>";
  }

  /** On the built tree every walk returns `'\0'` and changes nothing: the
      root is a leaf with empty content. */
  lemma BuiltTreeIsInert(bufferSize: Int32, ds: seq<Label>)
    ensures var h := HnTree.New(Build(NewBuilder()).tree, bufferSize);
      Walks(h, ds).state == h && forall i :: 0 <= i < |ds| ==> Walks(h, ds).chars[i] == Nul
  {
    var h := HnTree.New(Build(NewBuilder()).tree, bufferSize);
    EmptyLeafTraps(h, ds);
  }
}

=== FILE: hn_tree.dfy ===
/** HnTree: an EnumTree behind a friendlier interface. Each directional step
    walks the tree; content reached is turned into one character, with caps
    and one-shot shift applied to printable content and bracketed action
    tokens mapped to control characters. Every emitted content is also kept
    in a bounded FIFO buffer. */
module HnTree {
  import opened Common
  import opened TreeNode
  import opened EnumTree

  datatype Hn = Hn(tree: Tree, buffer: seq<string>, bufferSize: Int32, isCaps: bool, isShift: bool)

  /** The state after one `walk` and the character it returned. */
  datatype Emit = Emit(state: Hn, ch: char)

  /** The state after a sequence of walks and the characters returned, in order. */
  datatype Run = Run(state: Hn, chars: seq<char>)

  const DefaultBufferSize: int := 32

  const Nul: char := 0 as char
  const Backspace: char := 8 as char
  const ShiftChar: char := 16 as char
  const CapsChar: char := 20 as char
  /** The character `<sym>` produces: code 114, which is `'r'`. */
  const SymChar: char := 114 as char

  /** The constructor, given the tree the builder produced. */
  function New(tree: Tree, bufferSize: Int32): (h: Hn)
    requires WellFormed(tree)
    ensures h.tree == tree && h.bufferSize == bufferSize
    ensures h.buffer == [] && !h.isCaps && !h.isShift
  {
    Hn(tree, [], bufferSize, false, false)
  }

  /** The one-argument constructor. */
  function NewDefault(tree: Tree): (h: Hn)
    requires WellFormed(tree)
    ensures h == New(tree, 32)
  {
    New(tree, DefaultBufferSize)
  }

  /** The characters at which Java's `.` stops matching. */
  predicate IsLineTerminator(c: char) {
    c == '\n' || c == '\r' || c == 0x85 as char || c == 0x2028 as char || c == 0x2029 as char
  }

  /** `content.matches("(<.*>)")`: the whole content is `<`, then characters
      other than line terminators, then `>`. */
  predicate IsAction(s: string) {
    && |s| >= 2
    && s[0] == '<'
    && s[|s| - 1] == '>'
    && forall i :: 0 < i < |s| - 1 ==> !IsLineTerminator(s[i])
  }

  function UpperChar(c: char): char {
    if 'a' <= c <= 'z' then (c as int - 32) as char else c
  }

  /** `toUpperCase`, restricted to ASCII letters. */
  function ToUpper(s: string): (r: string)
    ensures |r| == |s|
    ensures forall i :: 0 <= i < |s| ==> r[i] == UpperChar(s[i])
  {
    seq(|s|, i requires 0 <= i < |s| => UpperChar(s[i]))
  }

  /** `addToBuffer`: append, then drop the oldest entry once the buffer is
      longer than `size` (one entry at most). */
  function AddToBuffer(buffer: seq<string>, size: int, content: string): (r: seq<string>)
    ensures |r| == if |buffer| + 1 > size then |buffer| else |buffer| + 1
    ensures r == (buffer + [content])[|buffer| + 1 - |r|..]
  {
    var b := buffer + [content];
    if |b| > size then b[1..] else b
  }

  /** `handleSpecialCharacter`: the action-token table. Only `<caps>` and
      `<shift>` change state, each by toggling its own flag. */
  function HandleSpecialCharacter(h: Hn, content: string): (r: Emit)
    ensures r.state.tree == h.tree && r.state.buffer == h.buffer && r.state.bufferSize == h.bufferSize
    ensures content == "<bksp>" ==> r == Emit(h, Backspace)
    ensures content == "<space>" ==> r == Emit(h, ' ')
    ensures content == "<enter>" ==> r == Emit(h, '\n')
    ensures content == "<caps>" ==> r.ch == CapsChar && r.state.isCaps == !h.isCaps && r.state.isShift == h.isShift
    ensures content == "<shift>" ==> r.ch == ShiftChar && r.state.isShift == !h.isShift && r.state.isCaps == h.isCaps
    ensures content == "<sym>" ==> r == Emit(h, SymChar)
    ensures content !in {"<bksp>", "<space>", "<enter>", "<caps>", "<shift>", "<sym>"} ==> r == Emit(h, Nul)
  {
    match content
    case "<bksp>" => Emit(h, Backspace)
    case "<space>" => Emit(h, ' ')
    case "<enter>" => Emit(h, '\n')
    case "<caps>" => Emit(h.(isCaps := !h.isCaps), CapsChar)
    case "<shift>" => Emit(h.(isShift := !h.isShift), ShiftChar)
    case "<sym>" => Emit(h, SymChar)
    case _ => Emit(h, Nul)
  }

  /** The form in which `contentToChar` buffers content: uppercased when it
      is printable and caps or shift is on, as it is otherwise. */
  function Shown(h: Hn, content: string): string {
    if !IsAction(content) && (h.isCaps || h.isShift) then ToUpper(content) else content
  }

  /** `contentToChar`: printable content is uppercased when caps or shift is
      on, clears shift, and yields its first character; action content goes
      through the token table. Either way the (possibly uppercased) content
      is buffered. */
  function ContentToChar(h: Hn, content: string): (r: Emit)
    requires content != ""
    ensures r.state.tree == h.tree && r.state.bufferSize == h.bufferSize
    ensures r.state.buffer == AddToBuffer(h.buffer, h.bufferSize, Shown(h, content))
    ensures !IsAction(content) ==>
      var upper := h.isCaps || h.isShift;
      && r.ch == (if upper then UpperChar(content[0]) else content[0])
      && r.state.isCaps == h.isCaps && !r.state.isShift
      && r.state.buffer == AddToBuffer(h.buffer, h.bufferSize, if upper then ToUpper(content) else content)
    ensures IsAction(content) ==>
      var s := HandleSpecialCharacter(h, content);
      && r.ch == s.ch
      && r.state == s.state.(buffer := AddToBuffer(h.buffer, h.bufferSize, content))
  {
    if !IsAction(content) then
      var shown := if h.isCaps || h.isShift then ToUpper(content) else content;
      var h1 := if h.isShift then h.(isShift := false) else h;
      Emit(h1.(buffer := AddToBuffer(h.buffer, h.bufferSize, shown)), shown[0])
    else
      var s := HandleSpecialCharacter(h, content);
      Emit(s.state.(buffer := AddToBuffer(h.buffer, h.bufferSize, content)), s.ch)
  }

  /** `walk`: one step down. Empty content yields `'\0'` and nothing but the
      cursor changes. Otherwise a leaf sends the cursor back to the root,
      an inner node keeps it, and the content is turned into a character. */
  function Walk(h: Hn, d: Label): (r: Emit)
    requires WellFormed(h.tree)
    ensures WellFormed(r.state.tree)
    ensures r.state.tree.arena == h.tree.arena && r.state.tree.root == h.tree.root
    ensures r.state.bufferSize == h.bufferSize
    ensures var s := WalkDown(h.tree, d);
      && (s.content == "" ==> r == Emit(h.(tree := s.tree), Nul))
      && (s.content != "" ==>
            && r.state.tree.cursor == (if CurrentIsLeaf(s.tree) then h.tree.root else s.tree.cursor)
            && r == ContentToChar(h.(tree := r.state.tree), s.content))
  {
    var s := WalkDown(h.tree, d);
    if s.content == "" then Emit(h.(tree := s.tree), Nul)
    else
      var t := if CurrentIsLeaf(s.tree) then Rewind(s.tree) else s.tree;
      ContentToChar(h.(tree := t), s.content)
  }

  /** Successive walks along `ds`. */
  function Walks(h: Hn, ds: seq<Label>): (r: Run)
    requires WellFormed(h.tree)
    ensures WellFormed(r.state.tree) && r.state.tree.arena == h.tree.arena
    ensures |r.chars| == |ds|
    decreases |ds|
  {
    if |ds| == 0 then Run(h, [])
    else
      var e := Walk(h, ds[0]);
      var rest := Walks(e.state, ds[1..]);
      Run(rest.state, [e.ch] + rest.chars)
  }

  /** `getFromBuffer`: reads position `bufferSize - index`, computed in
      Java's wrapping `int` arithmetic, which must lie inside the buffer. */
  function GetFromBuffer(h: Hn, index: Int32): (r: Result<string>)
    ensures r.Ok? <==> 0 <= Wrap32(h.bufferSize - index) < |h.buffer|
    ensures r.Ok? ==> r.value == h.buffer[Wrap32(h.bufferSize - index)]
    ensures r.Err? ==> r.error == IndexOutOfBounds(Wrap32(h.bufferSize - index))
  {
    var k := Wrap32(h.bufferSize - index);
    if 0 <= k < |h.buffer| then Ok(h.buffer[k]) else Err(IndexOutOfBounds(k))
  }

  /** `setCaps`: sets the caps flag and nothing else. */
  function SetCaps(h: Hn, caps: bool): (r: Hn)
    ensures r.isCaps == caps
    ensures r.(isCaps := h.isCaps) == h
  {
    h.(isCaps := caps)
  }

  predicate NextIsCapitalized(h: Hn) {
    h.isCaps || h.isShift
  }

  predicate IsCaps(h: Hn) {
    h.isCaps
  }

  predicate IsShift(h: Hn) {
    h.isShift
  }

  // ---------------------------------------------------------------------
  // Properties.

  /** The edges of the token pattern: the shortest token, contents too
      short to be one, a line terminator inside, and the reserved tokens. */
  lemma IsActionEdgeCases()
    ensures IsAction("<>") && IsAction("<a>") && IsAction("<bksp>") && IsAction("<sym>")
    ensures !IsAction("") && !IsAction("<") && !IsAction(">") && !IsAction("a")
    ensures !IsAction("<a\nb>") && !IsAction("<a\rb>") && !IsAction("<a") && !IsAction("a>")
  {
    assert "<a\nb>"[2] == '\n';
    assert "<a\rb>"[2] == '\r';
  }

  /** The flag accessors: `nextIsCapitalized` is caps or shift, and
      `setCaps` sets what `isCaps` reads while `isShift` is unaffected. */
  lemma FlagAccessors(h: Hn, caps: bool)
    ensures NextIsCapitalized(h) <==> IsCaps(h) || IsShift(h)
    ensures IsCaps(SetCaps(h, caps)) == caps
    ensures IsShift(SetCaps(h, caps)) == IsShift(h)
    ensures NextIsCapitalized(SetCaps(h, true))
  {
  }

  /** `nextIsCapitalized` predicts the case of the next printable character,
      and shift is spent on it while caps stays. */
  lemma NextIsCapitalizedPredictsCase(h: Hn, content: string)
    requires content != "" && !IsAction(content)
    requires 'a' <= content[0] <= 'z'
    ensures var r := ContentToChar(h, content);
      && (r.ch != content[0] <==> NextIsCapitalized(h))
      && !IsShift(r.state) && IsCaps(r.state) == IsCaps(h)
  {
  }

  /** Action tokens other than `<shift>` leave the shift flag alone; only
      printable content consumes it. */
  lemma ActionsKeepShift(h: Hn, content: string)
    requires IsAction(content) && content != "<shift>"
    ensures ContentToChar(h, content).state.isShift == h.isShift
  {
  }

  /** Toggling caps, or shift, twice restores the flag. */
  lemma ToggleTwiceRestores(h: Hn)
    ensures ContentToChar(ContentToChar(h, "<caps>").state, "<caps>").state.isCaps == h.isCaps
    ensures ContentToChar(ContentToChar(h, "<shift>").state, "<shift>").state.isShift == h.isShift
  {
    assert IsAction("<caps>") && IsAction("<shift>");
  }

  /** The buffer holds at most `bufferSize` entries (none when the size is
      negative). */
  predicate BufferBounded(h: Hn) {
    |h.buffer| <= if h.bufferSize < 0 then 0 else h.bufferSize
  }

  /** Every walk that reaches content buffers exactly one entry, the oldest
      going first, and the bound is kept. */
  lemma WalkBuffersOneEntry(h: Hn, d: Label)
    requires WellFormed(h.tree) && BufferBounded(h)
    ensures BufferBounded(Walk(h, d).state)
    ensures WalkDown(h.tree, d).content != "" && 0 < h.bufferSize ==>
      var b := Walk(h, d).state.buffer;
      && |b| > 0
      && b[..|b| - 1] == (if |h.buffer| < h.bufferSize then h.buffer else h.buffer[1..])
  {
    var s := WalkDown(h.tree, d);
    if s.content != "" {
      AddToBufferKeepsBound(h.buffer, h.bufferSize, Shown(h, s.content));
    }
  }

  /** Adding to a buffer within its size keeps it within its size; when the
      size is positive, what precedes the new entry is the old buffer, less
      its oldest entry when it was full. */
  lemma AddToBufferKeepsBound(buffer: seq<string>, size: int, content: string)
    requires |buffer| <= if size < 0 then 0 else size
    ensures |AddToBuffer(buffer, size, content)| <= if size < 0 then 0 else size
    ensures 0 < size ==>
      var b := AddToBuffer(buffer, size, content);
      && |b| > 0 && b[|b| - 1] == content
      && b[..|b| - 1] == (if |buffer| < size then buffer else buffer[1..])
  {
    var all := buffer + [content];
    if 0 < size {
      if |buffer| < size {
        assert all[..|all| - 1] == buffer;
      } else {
        assert all[1..][..|all| - 2] == buffer[1..];
      }
    }
  }

  /** A step onto an inner node with empty content only moves the cursor
      there and returns `'\0'`. */
  lemma StepToBlankInner(h: Hn, d: Label)
    requires WellFormed(h.tree) && d in Current(h.tree).children
    requires var n := h.tree.arena.nodes[Current(h.tree).children[d]]; n.content == ""
    ensures Walk(h, d) == Emit(h.(tree := h.tree.(cursor := Current(h.tree).children[d])), Nul)
  {
    assert ChildLinked(h.tree.arena, h.tree.cursor, Current(h.tree).children[d]);
  }

  /** A step onto a printable leaf, with caps and shift off, returns the
      leaf's first character, buffers its content and rewinds. */
  lemma StepToPrintableLeaf(h: Hn, d: Label)
    requires WellFormed(h.tree) && !h.isCaps && !h.isShift && d in Current(h.tree).children
    requires var n := h.tree.arena.nodes[Current(h.tree).children[d]];
      IsLeaf(n) && n.content != "" && !IsAction(n.content)
    ensures var n := h.tree.arena.nodes[Current(h.tree).children[d]];
      Walk(h, d) == Emit(h.(tree := Rewind(h.tree), buffer := AddToBuffer(h.buffer, h.bufferSize, n.content)),
                         n.content[0])
  {
    assert ChildLinked(h.tree.arena, h.tree.cursor, Current(h.tree).children[d]);
  }

  /** A step onto a leaf holding an action token other than `<caps>` and
      `<shift>` returns the token's character, buffers the token and
      rewinds, leaving both flags alone. */
  lemma StepToActionLeaf(h: Hn, d: Label)
    requires WellFormed(h.tree) && d in Current(h.tree).children
    requires var n := h.tree.arena.nodes[Current(h.tree).children[d]];
      IsLeaf(n) && IsAction(n.content) && n.content != "<caps>" && n.content != "<shift>"
    ensures var n := h.tree.arena.nodes[Current(h.tree).children[d]];
      Walk(h, d) == Emit(h.(tree := Rewind(h.tree), buffer := AddToBuffer(h.buffer, h.bufferSize, n.content)),
                         HandleSpecialCharacter(h, n.content).ch)
  {
    assert ChildLinked(h.tree.arena, h.tree.cursor, Current(h.tree).children[d]);
  }

  /** No run of walks takes the buffer past its size. */
  lemma {:induction false} WalksKeepBufferBounded(h: Hn, ds: seq<Label>)
    requires WellFormed(h.tree) && BufferBounded(h)
    ensures BufferBounded(Walks(h, ds).state)
    decreases |ds|
  {
    if |ds| > 0 {
      WalkBuffersOneEntry(h, ds[0]);
      WalksKeepBufferBounded(Walk(h, ds[0]).state, ds[1..]);
    }
  }

  /** `getFromBuffer(0)` reads position `bufferSize`, one past the largest
      the bound allows, so it always fails. */
  lemma GetFromBufferZeroFails(h: Hn)
    requires BufferBounded(h)
    ensures GetFromBuffer(h, 0).Err?
  {
  }

  /** The wrap-around never decides success: with the buffer within its
      bound, `getFromBuffer(index)` succeeds exactly when the exact
      difference `bufferSize - index` lies in the buffer, and then reads
      that position. An overflowing difference wraps to a negative
      position; an underflowing one needs a negative size, and then the
      buffer is empty. */
  lemma GetFromBufferWrapIsHarmless(h: Hn, index: Int32)
    requires BufferBounded(h)
    ensures GetFromBuffer(h, index).Ok? <==> 0 <= h.bufferSize - index < |h.buffer|
    ensures GetFromBuffer(h, index).Ok? ==> GetFromBuffer(h, index).value == h.buffer[h.bufferSize - index]
  {
    var k := h.bufferSize - index;
    if k >= 0x8000_0000 {
      assert Wrap32(k) == k - 0x1_0000_0000;
    } else if k < -0x8000_0000 {
      assert |h.buffer| == 0;
    }
  }

  /** A leaf whose content is empty traps the cursor: no walk leaves it,
      every walk returns `'\0'`, and nothing else changes either. */
  lemma {:induction false} EmptyLeafTraps(h: Hn, ds: seq<Label>)
    requires WellFormed(h.tree)
    requires CurrentIsLeaf(h.tree) && Current(h.tree).content == ""
    ensures Walks(h, ds).state == h
    ensures forall i :: 0 <= i < |ds| ==> Walks(h, ds).chars[i] == Nul
    decreases |ds|
  {
    if |ds| > 0 {
      assert ds[0] !in Current(h.tree).children;
      assert Walk(h, ds[0]) == Emit(h, Nul);
      EmptyLeafTraps(h, ds[1..]);
    }
  }
}

=== FILE: hn_writer.dfy ===
/** HnWriter: an HnTree whose output characters are collected into the line
    being typed (a builder and a cached string), with completed lines moved
    to a history on enter. */
module HnWriter {
  import opened Common
  import opened EnumTree
  import opened HnTree

  /** `sb` is the `StringBuilder` of the line, `current` the string cached
      from it, `history` the completed lines, oldest first. */
  datatype Writer = Writer(hn: Hn, history: seq<string>, sb: string, current: string)

  datatype WEmit = WEmit(state: Writer, ch: char)

  datatype WRun = WRun(state: Writer, chars: seq<char>)

  /** `historySize`: used only to index the history, never to bound it. */
  const HistorySize: int := 32

  /** Results the writer ignores. `SymChar` is `'r'`, so a typed lower-case
      r is ignored as well. */
  predicate Ignored(c: char) {
    c == Nul || c == ShiftChar || c == CapsChar || c == SymChar
  }

  /** The constructor: an HnTree with the default buffer size and an empty
      line and history. */
  function New(tree: Tree): (w: Writer)
    requires WellFormed(tree)
    ensures w.hn == NewDefault(tree)
    ensures w.history == [] && w.sb == "" && w.current == ""
  {
    Writer(NewDefault(tree), [], "", "")
  }

  /** The overriding `walk`: it returns what the HnTree step returned and
      updates the line. Backspace shortens only the builder, and never below
      one character; enter moves the cached string (not the builder) into
      the history; ignored results change nothing; anything else is
      appended to the builder and the cache refreshed from it. */
  function Walk(w: Writer, d: Label): (r: WEmit)
    requires WellFormed(w.hn.tree)
    ensures var e := HnTree.Walk(w.hn, d); r.ch == e.ch && r.state.hn == e.state
    ensures r.ch == Backspace ==>
      && r.state.history == w.history && r.state.current == w.current
      && r.state.sb == (if |w.sb| > 1 then w.sb[..|w.sb| - 1] else w.sb)
    ensures r.ch == '\n' ==>
      r.state.history == w.history + [w.current] && r.state.sb == "" && r.state.current == ""
    ensures Ignored(r.ch) ==>
      r.state.history == w.history && r.state.sb == w.sb && r.state.current == w.current
    ensures r.ch != Backspace && r.ch != '\n' && !Ignored(r.ch) ==>
      && r.state.history == w.history
      && r.state.sb == w.sb + [r.ch]
      && r.state.current == r.state.sb
  {
    var e := HnTree.Walk(w.hn, d);
    var w1 := w.(hn := e.state);
    var c := e.ch;
    if c == Backspace then
      WEmit(if |w.sb| > 1 then w1.(sb := w.sb[..|w.sb| - 1]) else w1, c)
    else if c == '\n' then
      WEmit(w1.(history := w.history + [w.current], sb := "", current := ""), c)
    else if Ignored(c) then
      WEmit(w1, c)
    else
      var sb := w.sb + [c];
      WEmit(w1.(sb := sb, current := sb), c)
  }

  /** Successive walks along `ds`. */
  function Walks(w: Writer, ds: seq<Label>): (r: WRun)
    requires WellFormed(w.hn.tree)
    ensures WellFormed(r.state.hn.tree)
    ensures |r.chars| == |ds|
    decreases |ds|
  {
    if |ds| == 0 then WRun(w, [])
    else
      var e := Walk(w, ds[0]);
      assert WellFormed(e.state.hn.tree);
      var rest := Walks(e.state, ds[1..]);
      WRun(rest.state, [e.ch] + rest.chars)
  }

  /** `getHistory`: reads position `historySize - index`, computed in
      Java's wrapping `int` arithmetic, which must lie inside the history. */
  function GetHistory(w: Writer, index: Int32): (r: Result<string>)
    ensures r.Ok? <==> 0 <= Wrap32(HistorySize - index) < |w.history|
    ensures r.Ok? ==> r.value == w.history[Wrap32(HistorySize - index)]
    ensures r.Err? ==> r.error == IndexOutOfBounds(Wrap32(HistorySize - index))
  {
    var k := Wrap32(HistorySize - index);
    if 0 <= k < |w.history| then Ok(w.history[k]) else Err(IndexOutOfBounds(k))
  }

  /** `getHistoryList`: the completed lines, oldest first. */
  function GetHistoryList(w: Writer): seq<string> {
    w.history
  }

  /** `getString`: the cached line, which backspace does not refresh. */
  function GetString(w: Writer): string {
    w.current
  }

  // ---------------------------------------------------------------------
  // Properties.

  /** The builder is always a prefix of the cached string: appends refresh
      the cache, enter clears both, backspace shortens only the builder. */
  predicate BuilderIsPrefix(w: Writer) {
    w.sb <= w.current
  }

  lemma WalkKeepsBuilderPrefix(w: Writer, d: Label)
    requires WellFormed(w.hn.tree) && BuilderIsPrefix(w)
    ensures BuilderIsPrefix(Walk(w, d).state)
  {
  }

  /** Number of newlines in `cs`. */
  function Newlines(cs: seq<char>): nat {
    if |cs| == 0 then 0 else (if cs[0] == '\n' then 1 else 0) + Newlines(cs[1..])
  }

  /** History grows by one line per `'\n'` returned and loses nothing:
      earlier lines stay where they were. */
  lemma {:induction false} HistoryCountsNewlines(w: Writer, ds: seq<Label>)
    requires WellFormed(w.hn.tree)
    ensures |Walks(w, ds).state.history| == |w.history| + Newlines(Walks(w, ds).chars)
    ensures w.history <= Walks(w, ds).state.history
    decreases |ds|
  {
    if |ds| > 0 {
      var e := Walk(w, ds[0]);
      HistoryCountsNewlines(e.state, ds[1..]);
      var r := Walks(w, ds);
      assert r.chars[1..] == Walks(e.state, ds[1..]).chars;
    }
  }

  /** A writer run returns exactly the characters of the underlying HnTree
      run, and leaves the HnTree in the same state. */
  lemma {:induction false} WalksAgreeWithHnTree(w: Writer, ds: seq<Label>)
    requires WellFormed(w.hn.tree)
    ensures Walks(w, ds).chars == HnTree.Walks(w.hn, ds).chars
    ensures Walks(w, ds).state.hn == HnTree.Walks(w.hn, ds).state
    decreases |ds|
  {
    if |ds| > 0 {
      WalksAgreeWithHnTree(Walk(w, ds[0]).state, ds[1..]);
    }
  }

  /** Over any run, the builder stays a prefix of the cached string. */
  lemma {:induction false} WalksKeepBuilderPrefix(w: Writer, ds: seq<Label>)
    requires WellFormed(w.hn.tree) && BuilderIsPrefix(w)
    ensures BuilderIsPrefix(Walks(w, ds).state)
    decreases |ds|
  {
    if |ds| > 0 {
      WalkKeepsBuilderPrefix(w, ds[0]);
      WalksKeepBuilderPrefix(Walk(w, ds[0]).state, ds[1..]);
    }
  }

  /** What the accessors show after one walk: `getHistoryList` gains the
      line `getString` showed before exactly when the walk returned a
      newline, and otherwise stays; `getString` is then empty. */
  lemma AccessorsAfterWalk(w: Writer, d: Label)
    requires WellFormed(w.hn.tree)
    ensures var e := Walk(w, d);
      && (e.ch == '\n' ==> GetHistoryList(e.state) == GetHistoryList(w) + [GetString(w)] && GetString(e.state) == "")
      && (e.ch != '\n' ==> GetHistoryList(e.state) == GetHistoryList(w))
  {
  }

  /** The wrap-around never decides success: `getHistory(index)` succeeds
      exactly when the exact difference `32 - index` lies in the history,
      and then reads that position, since only an overflowing difference
      wraps, and it wraps to a negative position. A Java list's size is an
      `int`, so the history holds fewer than 2^31 lines. */
  lemma GetHistoryWrapIsHarmless(w: Writer, index: Int32)
    requires |w.history| < 0x8000_0000
    ensures GetHistory(w, index).Ok? <==> 0 <= HistorySize - index < |w.history|
    ensures GetHistory(w, index).Ok? ==> GetHistory(w, index).value == w.history[HistorySize - index]
  {
    if HistorySize - index >= 0x8000_0000 {
      assert Wrap32(HistorySize - index) == HistorySize - index - 0x1_0000_0000;
    }
  }

  /** `getHistory(0)` reads position 32, so it fails whenever fewer than 33
      lines have been completed. */
  lemma GetHistoryZeroNeeds33Lines(w: Writer)
    ensures GetHistory(w, 0).Ok? <==> |w.history| > 32
    ensures GetHistory(w, 0).Err? ==> GetHistory(w, 0).error == IndexOutOfBounds(32)
  {
  }
}

=== FILE: scenarios.dfy ===
/** Concrete runs: the repository's writer test, and small trees that show
    what the code as written does with a typed `r` and with backspace. The
    trees are built directly in the arena, since `addNodeToPath` cannot
    build any tree from an empty one. */
module Scenarios {
  import opened Common
  import opened TreeNode
  import opened EnumTree
  import opened HnTree
  import opened HnWriter

  /** The test enum's constants, by ordinal. */
  const Up: Label := 0
  const Down: Label := 1
  const Left: Label := 2
  const Right: Label := 3

  function Inner(parent: Option<Id>, children: map<Label, Id>): Node {
    Node("", parent, children, 0)
  }

  function Leaf(content: string, parent: Id): Node {
    Node(content, Some(parent), map[], 0)
  }

  /** The tree the writer test expects: UP LEFT is `h`, UP DOWN is `i`,
      LEFT UP is `<enter>`. */
  function HiTree(): (t: Tree)
    ensures WellFormed(t) && t.cursor == t.root
  {
    Tree(Arena(map[
      0 := Inner(None, map[Up := 1, Left := 4]),
      1 := Inner(Some(0), map[Left := 2, Down := 3]),
      2 := Leaf("h", 1),
      3 := Leaf("i", 1),
      4 := Inner(Some(0), map[Up := 5]),
      5 := Leaf("<enter>", 4)], 6), 0, 0)
  }

  /** No path can be added to a freshly constructed tree. */
  lemma FreshTreeRejectsEveryPath(content: string, path: seq<Label>)
    ensures AddNodeToPath(EnumTree.New(), content, path).Err?
  {
    if |path| > 0 {
      assert Resolve(EnumTree.New().arena, 0, path) == None;
    }
  }

  /** A tree holding only its root stays so: both insertion operations
      fail on it, since `addChild` rejects every empty slot. Every tree the
      code builds from `new EnumTree` is therefore the bare root, whose
      empty content is the constructor's `""` literal. */
  lemma CodeBuiltTreesStayRootOnly(t: Tree, content: string, path: seq<Label>, lab: Label)
    requires WellFormed(t) && t.arena.nodes.Keys == {t.root}
    ensures AddNodeToPath(t, content, path).Err?
    ensures AddChildToCurrent(t, content, lab).Err?
  {
    assert t.cursor == t.root;
    assert lab in Current(t).children ==> ChildLinked(t.arena, t.root, Current(t).children[lab]);
    if |path| > 0 {
      assert path[0] in t.arena.nodes[t.root].children ==>
        ChildLinked(t.arena, t.root, t.arena.nodes[t.root].children[path[0]]);
      assert Resolve(t.arena, t.root, path) == None;
    }
  }

  /** Node `id` of `t` is a leaf holding `content`. */
  predicate LeafWith(t: Tree, id: Id, content: string) {
    id in t.arena.nodes && t.arena.nodes[id].content == content && IsLeaf(t.arena.nodes[id])
  }

  /** Node `id` of `t` is an empty-content inner node with `child` under `lab`. */
  predicate InnerWith(t: Tree, id: Id, lab: Label, child: Id) {
    id in t.arena.nodes && t.arena.nodes[id].content == "" && GetChild(t.arena.nodes[id], lab) == Some(child)
  }

  /** The shape the writer test relies on, with the cursor at the root:
      UP then LEFT reaches `h`, UP then DOWN reaches `i`, LEFT then UP
      reaches `<enter>`. */
  predicate HiShaped(t: Tree, u: Id, h: Id, i: Id, l: Id, e: Id) {
    && WellFormed(t) && t.cursor == t.root
    && InnerWith(t, t.root, Up, u) && GetChild(Current(t), Left) == Some(l)
    && InnerWith(t, u, Left, h) && GetChild(t.arena.nodes[u], Down) == Some(i)
    && InnerWith(t, l, Up, e)
    && LeafWith(t, h, "h") && LeafWith(t, i, "i") && LeafWith(t, e, "<enter>")
  }

  lemma HiTreeIsHiShaped()
    ensures HiShaped(HiTree(), 1, 2, 3, 4, 5)
  {
  }

  /** A writer over `t` with the cursor at `cursor`, caps and shift off. */
  function At(t: Tree, cursor: Id, buffer: seq<string>, sb: string, current: string, history: seq<string>): Writer
  {
    Writer(Hn(t.(cursor := cursor), buffer, 32, false, false), history, sb, current)
  }

  /** Typing a one-character printable leaf, caps and shift off, whose
      character the writer neither ignores nor treats as an edit: the
      character is appended to the line and the cursor rewinds. */
  lemma TypeOneChar(w: Writer, d: Label, c: char)
    requires WellFormed(w.hn.tree) && !w.hn.isCaps && !w.hn.isShift && d in Current(w.hn.tree).children
    requires var n := w.hn.tree.arena.nodes[Current(w.hn.tree).children[d]]; IsLeaf(n) && n.content == [c]
    requires !Ignored(c) && c != Backspace && c != '\n'
    ensures HnWriter.Walk(w, d) ==
      WEmit(Writer(w.hn.(tree := Rewind(w.hn.tree), buffer := AddToBuffer(w.hn.buffer, w.hn.bufferSize, [c])),
                   w.history, w.sb + [c], w.sb + [c]), c)
  {
    assert !IsAction([c]);
    StepToPrintableLeaf(w.hn, d);
  }

  /** Stepping onto an empty inner node moves the cursor there and leaves
      the line, the history and the buffer as they were. */
  lemma PassBlank(w: Writer, d: Label)
    requires WellFormed(w.hn.tree) && d in Current(w.hn.tree).children
    requires w.hn.tree.arena.nodes[Current(w.hn.tree).children[d]].content == ""
    ensures HnWriter.Walk(w, d) ==
      WEmit(w.(hn := w.hn.(tree := w.hn.tree.(cursor := Current(w.hn.tree).children[d]))), Nul)
  {
    StepToBlankInner(w.hn, d);
  }

  /** The test's first step, UP, passes the blank inner node. */
  lemma HiFirstUp(t: Tree, u: Id, h: Id, i: Id, l: Id, e: Id)
    requires HiShaped(t, u, h, i, l, e)
    ensures HnWriter.Walk(At(t, t.root, [], "", "", []), Up) == WEmit(At(t, u, [], "", "", []), Nul)
  {
    assert t.(cursor := t.root) == t;
    PassBlank(At(t, t.root, [], "", "", []), Up);
  }

  /** LEFT then types `h` and rewinds. */
  lemma HiTypeH(t: Tree, u: Id, h: Id, i: Id, l: Id, e: Id)
    requires HiShaped(t, u, h, i, l, e)
    ensures HnWriter.Walk(At(t, u, [], "", "", []), Left) == WEmit(At(t, t.root, ["h"], "h", "h", []), 'h')
  {
    assert t.(cursor := t.root) == t;
    TypeOneChar(At(t, u, [], "", "", []), Left, 'h');
  }

  /** UP again passes the blank inner node, keeping the line. */
  lemma HiSecondUp(t: Tree, u: Id, h: Id, i: Id, l: Id, e: Id)
    requires HiShaped(t, u, h, i, l, e)
    ensures HnWriter.Walk(At(t, t.root, ["h"], "h", "h", []), Up) == WEmit(At(t, u, ["h"], "h", "h", []), Nul)
  {
    assert t.(cursor := t.root) == t;
    PassBlank(At(t, t.root, ["h"], "h", "h", []), Up);
  }

  /** DOWN types `i`, making the line "hi". */
  lemma HiTypeI(t: Tree, u: Id, h: Id, i: Id, l: Id, e: Id)
    requires HiShaped(t, u, h, i, l, e)
    ensures HnWriter.Walk(At(t, u, ["h"], "h", "h", []), Down) == WEmit(At(t, t.root, ["h", "i"], "hi", "hi", []), 'i')
  {
    assert t.(cursor := t.root) == t;
    TypeOneChar(At(t, u, ["h"], "h", "h", []), Down, 'i');
    assert AddToBuffer(["h"], 32, "i") == ["h", "i"];
    assert "h" + ['i'] == "hi";
  }

  lemma HiEnter(t: Tree, u: Id, h: Id, i: Id, l: Id, e: Id)
    requires HiShaped(t, u, h, i, l, e)
    ensures HnWriter.Walk(At(t, t.root, ["h", "i"], "hi", "hi", []), Left) == WEmit(At(t, l, ["h", "i"], "hi", "hi", []), Nul)
    ensures HnWriter.Walk(At(t, l, ["h", "i"], "hi", "hi", []), Up) ==
            WEmit(At(t, t.root, ["h", "i", "<enter>"], "", "", ["hi"]), '\n')
  {
    assert t.(cursor := t.root) == t;
    PassBlank(At(t, t.root, ["h", "i"], "hi", "hi", []), Left);
    assert IsAction("<enter>");
    StepToActionLeaf(At(t, l, ["h", "i"], "hi", "hi", []).hn, Up);
    assert AddToBuffer(["h", "i"], 32, "<enter>") == ["h", "i", "<enter>"];
  }


  /** The writer test, on any tree of its shape: typing h, i and enter
      leaves an empty line and "hi" in the history, but `getHistory(0)`
      reads position 32 and fails instead of returning "hi". */
  lemma HiEnterOnShape(t: Tree, u: Id, h: Id, i: Id, l: Id, e: Id)
    requires HiShaped(t, u, h, i, l, e)
    ensures
      var e1 := HnWriter.Walk(HnWriter.New(t), Up);
      var e2 := HnWriter.Walk(e1.state, Left);
      var e3 := HnWriter.Walk(e2.state, Up);
      var e4 := HnWriter.Walk(e3.state, Down);
      var e5 := HnWriter.Walk(e4.state, Left);
      var e6 := HnWriter.Walk(e5.state, Up);
      && [e1.ch, e2.ch, e3.ch, e4.ch, e5.ch, e6.ch] == [Nul, 'h', Nul, 'i', Nul, '\n']
      && GetString(e6.state) == ""
      && GetHistoryList(e6.state) == ["hi"]
      && GetHistory(e6.state, 0) == Err(IndexOutOfBounds(32))
  {
    assert At(t, t.root, [], "", "", []) == HnWriter.New(t) by {
      assert t.(cursor := t.root) == t;
    }
    assert Wrap32(HistorySize - 0) == 32;
    HiFirstUp(t, u, h, i, l, e);
    HiTypeH(t, u, h, i, l, e);
    HiSecondUp(t, u, h, i, l, e);
    HiTypeI(t, u, h, i, l, e);
    HiEnter(t, u, h, i, l, e);
  }

  /** The writer test on its own tree. */
  lemma HiEnterScenario()
    ensures
      var e1 := HnWriter.Walk(HnWriter.New(HiTree()), Up);
      var e2 := HnWriter.Walk(e1.state, Left);
      var e3 := HnWriter.Walk(e2.state, Up);
      var e4 := HnWriter.Walk(e3.state, Down);
      var e5 := HnWriter.Walk(e4.state, Left);
      var e6 := HnWriter.Walk(e5.state, Up);
      && [e1.ch, e2.ch, e3.ch, e4.ch, e5.ch, e6.ch] == [Nul, 'h', Nul, 'i', Nul, '\n']
      && GetString(e6.state) == ""
      && GetHistoryList(e6.state) == ["hi"]
      && GetHistory(e6.state, 0).Err?
  {
    HiTreeIsHiShaped();
    HiEnterOnShape(HiTree(), 1, 2, 3, 4, 5);
  }

  /** Root-level leaves: `a` under UP, `r` under DOWN, `<bksp>` under LEFT. */
  predicate ArShaped(t: Tree, a: Id, r: Id, b: Id) {
    && WellFormed(t) && t.cursor == t.root
    && GetChild(Current(t), Up) == Some(a) && LeafWith(t, a, "a")
    && GetChild(Current(t), Down) == Some(r) && LeafWith(t, r, "r")
    && GetChild(Current(t), Left) == Some(b) && LeafWith(t, b, "<bksp>")
  }

  function ArTree(): (t: Tree)
    ensures WellFormed(t) && t.cursor == t.root
  {
    Tree(Arena(map[
      0 := Inner(None, map[Up := 1, Down := 2, Left := 3]),
      1 := Leaf("a", 0),
      2 := Leaf("r", 0),
      3 := Leaf("<bksp>", 0)], 4), 0, 0)
  }

  lemma ArTreeIsArShaped()
    ensures ArShaped(ArTree(), 1, 2, 3)
  {
  }

  /** UP types `a`. */
  lemma ArTypeA(t: Tree, a: Id, r: Id, b: Id)
    requires ArShaped(t, a, r, b)
    ensures HnWriter.Walk(At(t, t.root, [], "", "", []), Up) == WEmit(At(t, t.root, ["a"], "a", "a", []), 'a')
  {
    assert t.(cursor := t.root) == t;
    TypeOneChar(At(t, t.root, [], "", "", []), Up, 'a');
  }

  /** DOWN reaches `r`: the walk returns it and buffers it, but the line
      stays as it was. */
  lemma ArTypeR(t: Tree, a: Id, r: Id, b: Id)
    requires ArShaped(t, a, r, b)
    ensures HnWriter.Walk(At(t, t.root, ["a"], "a", "a", []), Down) == WEmit(At(t, t.root, ["a", "r"], "a", "a", []), 'r')
  {
    assert t.(cursor := t.root) == t;
    var w := At(t, t.root, ["a"], "a", "a", []);
    StepToPrintableLeaf(w.hn, Down);
    assert AddToBuffer(["a"], 32, "r") == ["a", "r"];
    assert HnTree.Walk(w.hn, Down) == Emit(w.hn.(buffer := ["a", "r"]), 'r');
    assert Ignored('r');
  }

  /** UP again types a second `a`. */
  lemma ArTypeSecondA(t: Tree, a: Id, r: Id, b: Id)
    requires ArShaped(t, a, r, b)
    ensures HnWriter.Walk(At(t, t.root, ["a"], "a", "a", []), Up) == WEmit(At(t, t.root, ["a", "a"], "aa", "aa", []), 'a')
  {
    assert t.(cursor := t.root) == t;
    TypeOneChar(At(t, t.root, ["a"], "a", "a", []), Up, 'a');
    assert AddToBuffer(["a"], 32, "a") == ["a", "a"];
    assert "a" + ['a'] == "aa";
  }

  /** The first backspace shortens the builder to one character. */
  lemma ArFirstBackspace(t: Tree, a: Id, r: Id, b: Id)
    requires ArShaped(t, a, r, b)
    ensures HnWriter.Walk(At(t, t.root, ["a", "a"], "aa", "aa", []), Left) ==
            WEmit(At(t, t.root, ["a", "a", "<bksp>"], "a", "aa", []), Backspace)
  {
    assert t.(cursor := t.root) == t;
    assert IsAction("<bksp>");
    StepToActionLeaf(At(t, t.root, ["a", "a"], "aa", "aa", []).hn, Left);
    assert AddToBuffer(["a", "a"], 32, "<bksp>") == ["a", "a", "<bksp>"];
    assert "aa"[..1] == "a";
  }

  /** The second backspace finds one character and leaves it. */
  lemma ArSecondBackspace(t: Tree, a: Id, r: Id, b: Id)
    requires ArShaped(t, a, r, b)
    ensures HnWriter.Walk(At(t, t.root, ["a", "a", "<bksp>"], "a", "aa", []), Left) ==
            WEmit(At(t, t.root, ["a", "a", "<bksp>", "<bksp>"], "a", "aa", []), Backspace)
  {
    assert t.(cursor := t.root) == t;
    assert IsAction("<bksp>");
    StepToActionLeaf(At(t, t.root, ["a", "a", "<bksp>"], "a", "aa", []).hn, Left);
    assert AddToBuffer(["a", "a", "<bksp>"], 32, "<bksp>") == ["a", "a", "<bksp>", "<bksp>"];
  }

  /** A typed lower-case `r` comes back from the walk but never reaches the
      line: its code is the one `<sym>` produces. */
  lemma TypedRIsDropped()
    ensures
      var e1 := HnWriter.Walk(HnWriter.New(ArTree()), Up);
      var e2 := HnWriter.Walk(e1.state, Down);
      && e1.ch == 'a' && e2.ch == 'r'
      && GetString(e2.state) == "a" && e2.state.sb == "a"
  {
    ArTreeIsArShaped();
    var t := ArTree();
    assert At(t, t.root, [], "", "", []) == HnWriter.New(t) by {
      assert t.(cursor := t.root) == t;
    }
    ArTypeA(t, 1, 2, 3);
    ArTypeR(t, 1, 2, 3);
  }

  /** Backspace shortens the builder but leaves `getString` stale, and never
      takes the builder below one character. */
  lemma BackspaceLeavesStringStale()
    ensures
      var e1 := HnWriter.Walk(HnWriter.New(ArTree()), Up);
      var e2 := HnWriter.Walk(e1.state, Up);
      var e3 := HnWriter.Walk(e2.state, Left);
      var e4 := HnWriter.Walk(e3.state, Left);
      && e3.ch == Backspace && e4.ch == Backspace
      && e3.state.sb == "a" && GetString(e3.state) == "aa"
      && e4.state.sb == "a" && GetString(e4.state) == "aa"
  {
    ArTreeIsArShaped();
    var t := ArTree();
    assert At(t, t.root, [], "", "", []) == HnWriter.New(t) by {
      assert t.(cursor := t.root) == t;
    }
    ArTypeA(t, 1, 2, 3);
    ArTypeSecondA(t, 1, 2, 3);
    ArFirstBackspace(t, 1, 2, 3);
    ArSecondBackspace(t, 1, 2, 3);
  }
}

=== FILE: tree_node.dfy ===
/** EnumTreeNode: one node of an n-ary labelled tree, and the arena that owns
    every node of a tree. A node's parent and children are arena handles
    rather than object references. */
module TreeNode {
  import opened Common

  datatype Node = Node(content: string, parent: Option<Id>, children: map<Label, Id>, weight: int)

  /** All nodes of one tree. `next` is the handle the next allocated node
      receives, so handles grow in allocation order. */
  datatype Arena = Arena(nodes: map<Id, Node>, next: Id)

  /** A node is a leaf exactly when its child map is empty; content plays no part. */
  predicate IsLeaf(n: Node) {
    |n.children| == 0
  }

  /** `c`, stored as a child of `p`, exists, was allocated after `p`, and
      points back at `p`. */
  predicate ChildLinked(a: Arena, p: Id, c: Id) {
    c in a.nodes && p < c && a.nodes[c].parent == Some(p)
  }

  /** Shape every arena built by the operations keeps: handles are below
      `next`, every stored child is linked back to its parent and is younger
      than it, and every parent link names an older node of the arena.
      Replaced children stay in the arena, unreachable, with their old
      parent link, as in `EnumTree`, where a replaced child becomes garbage. */
  predicate Valid(a: Arena) {
    && (forall id :: id in a.nodes ==> id < a.next)
    && (forall id, l :: id in a.nodes && l in a.nodes[id].children ==>
          ChildLinked(a, id, a.nodes[id].children[l]))
    && (forall id :: id in a.nodes && a.nodes[id].parent.Some? ==>
          a.nodes[id].parent.value in a.nodes && a.nodes[id].parent.value < id)
  }

  /** The unweighted constructor; a Java `null` content is `None`. */
  function NewNode(content: Option<string>, parent: Option<Id>): (n: Node)
    ensures content.None? ==> n.content == ""
    ensures content.Some? ==> n.content == content.value
    ensures n.parent == parent && n.weight == 0
    ensures IsLeaf(n)
  {
    Node(if content.Some? then content.value else "", parent, map[], 0)
  }

  /** The weighted constructor: the unweighted one, then the weight. */
  function NewWeightedNode(content: Option<string>, parent: Option<Id>, weight: int): (n: Node)
    ensures n.weight == weight
    ensures n.(weight := 0) == NewNode(content, parent)
  {
    NewNode(content, parent).(weight := weight)
  }

  function GetChild(n: Node, lab: Label): (r: Option<Id>)
    ensures r.Some? <==> lab in n.children
    ensures r.Some? ==> r.value == n.children[lab]
  {
    if lab in n.children then Some(n.children[lab]) else None
  }

  function GetParent(n: Node): Option<Id> {
    n.parent
  }

  function GetWeight(n: Node): int {
    n.weight
  }

  /** Changes the weight and nothing else. */
  function SetWeight(n: Node, weight: int): (r: Node)
    ensures GetWeight(r) == weight
    ensures r.content == n.content && r.parent == n.parent && r.children == n.children
  {
    n.(weight := weight)
  }

  /** `addChild` as written: it throws when NO child is stored under the
      label and otherwise replaces the stored child, the opposite of what
      its documentation announces. */
  function AddChild(n: Node, child: Id, lab: Label): (r: Result<Node>)
    ensures r.Err? <==> GetChild(n, lab).None?
    ensures r.Err? ==> r.error == ChildRejected(lab)
    ensures r.Ok? ==> r.value.content == n.content && r.value.parent == n.parent
                      && r.value.weight == n.weight
    ensures r.Ok? ==> r.value.children.Keys == n.children.Keys
                      && GetChild(r.value, lab) == Some(child)
    ensures r.Ok? ==> forall l :: l in n.children && l != lab ==>
                        r.value.children[l] == n.children[l]
  {
    if GetChild(n, lab).None? then Err(ChildRejected(lab))
    else Ok(n.(children := n.children[lab := child]))
  }

  /** `getParent` reads back the parent the constructors store. */
  lemma ParentReadsBack(content: Option<string>, parent: Option<Id>, weight: int, n: Node)
    ensures GetParent(NewNode(content, parent)) == parent
    ensures GetParent(NewWeightedNode(content, parent, weight)) == parent
    ensures GetParent(SetWeight(n, weight)) == GetParent(n)
  {
  }

  /** `getWeight` reads 0 on an unweighted node, and otherwise the weight
      the weighted constructor or `setWeight` stored. */
  lemma WeightReadsBack(content: Option<string>, parent: Option<Id>, weight: int, n: Node)
    ensures GetWeight(NewNode(content, parent)) == 0
    ensures GetWeight(NewWeightedNode(content, parent, weight)) == weight
    ensures GetWeight(SetWeight(n, weight)) == weight
  {
  }

  /** A `null` content and an empty one make the same node, so operations
      that forward their caller's content may take `""` for `null`. */
  lemma NullContentIsEmpty(parent: Option<Id>)
    ensures NewNode(None, parent) == NewNode(Some(""), parent)
  {
  }

  /** In a valid arena a node's parent is an older node of the same arena. */
  lemma ParentIsOlder(a: Arena, id: Id)
    requires Valid(a) && id in a.nodes
    ensures GetParent(a.nodes[id]).Some? ==>
      GetParent(a.nodes[id]).value in a.nodes && GetParent(a.nodes[id]).value < id
  {
  }

  /** Leafness is structural: a node is a leaf iff no label leads anywhere. */
  lemma LeafIffNoChild(n: Node)
    ensures IsLeaf(n) <==> forall l: Label :: GetChild(n, l).None?
  {
    if !IsLeaf(n) {
      var l :| l in n.children.Keys;
      assert GetChild(n, l).Some?;
    }
  }

  /** Allocates a node holding `content` with parent `at` (the `new
      EnumTreeNode<>(content, at, eClass)` of the callers) and hands it to
      `addChild` on `at` under `lab`. On success the arena gains the node
      under handle `next`. */
  function AddFreshChild(a: Arena, at: Id, content: string, lab: Label): (r: Result<(Arena, Id)>)
    requires Valid(a) && at in a.nodes
    ensures r.Err? <==> lab !in a.nodes[at].children
    ensures r.Err? ==> r.error == ChildRejected(lab)
    ensures r.Ok? ==> var b := r.value.0; var kid := r.value.1;
      && Valid(b)
      && kid !in a.nodes
      && b.nodes.Keys == a.nodes.Keys + {kid}
      && b.nodes[kid] == NewNode(Some(content), Some(at))
      && (forall z :: z in a.nodes && z != at ==> b.nodes[z] == a.nodes[z])
      && b.nodes[at].content == a.nodes[at].content
      && b.nodes[at].parent == a.nodes[at].parent
      && b.nodes[at].weight == a.nodes[at].weight
      && b.nodes[at].children.Keys == a.nodes[at].children.Keys
      && b.nodes[at].children[lab] == kid
      && (forall l :: l in a.nodes[at].children && l != lab ==>
            b.nodes[at].children[l] == a.nodes[at].children[l])
  {
    var kid := a.next;
    var n := NewNode(Some(content), Some(at));
    match AddChild(a.nodes[at], kid, lab)
    case Err(e) => Err(e)
    case Ok(p) =>
      var b := Arena(a.nodes[at := p][kid := n], a.next + 1);
      assert Valid(b) by {
        forall id, l | id in b.nodes && l in b.nodes[id].children
          ensures ChildLinked(b, id, b.nodes[id].children[l])
        {
          if id == at && l == lab {
          } else if id != kid {
            assert id in a.nodes && l in a.nodes[id].children;
            assert ChildLinked(a, id, a.nodes[id].children[l]);
          }
        }
      }
      Ok((b, kid))
  }

  // ---------------------------------------------------------------------
  // Pre-order content listing (`getContentList(StringBuilder)`).

  /** `getContentList(sb)` as written: append this node's content and one
      space unless the content is empty, then recurse into the children in
      label order, threading the same builder. */
  function AppendContentList(a: Arena, id: Id, sb: string): string
    requires Valid(a) && id in a.nodes
    decreases a.next - id, Arity + 1
  {
    var n := a.nodes[id];
    var sb1 := if n.content != "" then sb + n.content + " " else sb;
    AppendChildren(a, id, 0, sb1)
  }

  /** The `for (child : children.values())` loop of `getContentList(sb)`,
      from label `from` onwards. */
  function AppendChildren(a: Arena, id: Id, from: nat, sb: string): string
    requires Valid(a) && id in a.nodes && from <= Arity
    decreases a.next - id, Arity - from
  {
    if from == Arity then sb
    else
      var l: Label := from;
      var n := a.nodes[id];
      var sb1 := if l in n.children then AppendContentList(a, n.children[l], sb) else sb;
      AppendChildren(a, id, from + 1, sb1)
  }

  /** Reference definition: the non-empty contents of the subtree at `id`,
      in pre-order with children visited in label order. */
  function Words(a: Arena, id: Id): seq<string>
    requires Valid(a) && id in a.nodes
    decreases a.next - id, Arity + 1
  {
    var n := a.nodes[id];
    (if n.content != "" then [n.content] else []) + WordsFrom(a, id, 0)
  }

  function WordsFrom(a: Arena, id: Id, from: nat): seq<string>
    requires Valid(a) && id in a.nodes && from <= Arity
    decreases a.next - id, Arity - from
  {
    if from == Arity then []
    else
      var l: Label := from;
      var n := a.nodes[id];
      (if l in n.children then Words(a, n.children[l]) else []) + WordsFrom(a, id, from + 1)
  }

  /** Every word followed by one space. */
  function Spaced(ws: seq<string>): string {
    if |ws| == 0 then "" else ws[0] + " " + Spaced(ws[1..])
  }

  /** The words separated by single spaces. */
  function Join(ws: seq<string>): string {
    if |ws| == 0 then ""
    else if |ws| == 1 then ws[0]
    else ws[0] + " " + Join(ws[1..])
  }

  lemma {:induction false} SpacedAppend(xs: seq<string>, ys: seq<string>)
    ensures Spaced(xs + ys) == Spaced(xs) + Spaced(ys)
  {
    if |xs| == 0 {
      assert xs + ys == ys;
    } else {
      assert (xs + ys)[1..] == xs[1..] + ys;
      SpacedAppend(xs[1..], ys);
    }
  }

  /** A spaced word list is empty only when there are no words; otherwise it
      is the joined list plus one trailing space. */
  lemma {:induction false} SpacedIsJoinPlusSpace(ws: seq<string>)
    ensures |ws| == 0 <==> Spaced(ws) == ""
    ensures |ws| > 0 ==> Spaced(ws) == Join(ws) + " "
  {
    if |ws| > 1 {
      SpacedIsJoinPlusSpace(ws[1..]);
    } else if |ws| == 1 {
      assert Spaced(ws) == ws[0] + " " + Spaced(ws[1..]);
    }
  }

  /** The builder version of the listing appends exactly the spaced pre-order
      words: each non-empty content in pre-order, each followed by one space. */
  lemma {:induction false} AppendContentListSpacesWords(a: Arena, id: Id, sb: string)
    requires Valid(a) && id in a.nodes
    ensures AppendContentList(a, id, sb) == sb + Spaced(Words(a, id))
    decreases a.next - id, Arity + 1
  {
    var n := a.nodes[id];
    var own: seq<string> := if n.content != "" then [n.content] else [];
    var sb1 := if n.content != "" then sb + n.content + " " else sb;
    AppendChildrenSpacesWords(a, id, 0, sb1);
    SpacedAppend(own, WordsFrom(a, id, 0));
    if n.content != "" {
      assert Spaced(own) == n.content + " " + Spaced([]);
    }
  }

  lemma {:induction false} AppendChildrenSpacesWords(a: Arena, id: Id, from: nat, sb: string)
    requires Valid(a) && id in a.nodes && from <= Arity
    ensures AppendChildren(a, id, from, sb) == sb + Spaced(WordsFrom(a, id, from))
    decreases a.next - id, Arity - from
  {
    if from < Arity {
      var l: Label := from;
      var n := a.nodes[id];
      var rest := WordsFrom(a, id, from + 1);
      if l in n.children {
        var c := n.children[l];
        assert ChildLinked(a, id, c);
        var sb1 := AppendContentList(a, c, sb);
        assert AppendChildren(a, id, from, sb) == AppendChildren(a, id, from + 1, sb1);
        assert WordsFrom(a, id, from) == Words(a, c) + rest;
        AppendContentListSpacesWords(a, c, sb);
        AppendChildrenSpacesWords(a, id, from + 1, sb1);
        SpacedAppend(Words(a, c), rest);
      } else {
        assert AppendChildren(a, id, from, sb) == AppendChildren(a, id, from + 1, sb);
        assert WordsFrom(a, id, from) == [] + rest;
        assert [] + rest == rest;
        AppendChildrenSpacesWords(a, id, from + 1, sb);
      }
    }
  }
}
